=== FILE: README.md ===
# Energy grid server core in Dafny

A model of the simulation core of the energy-grid party game server. A single
shared energy level decays on every game-loop tick. Connected players perturb it
with four actions: generate, stabilize, steal and emergency adjust. Three of those
actions are gated by per-player cooldowns. Steals fill a private stash. The game
ends once, with a cooperative win, a shutdown, a meltdown or an individual win.
After that only a reset starts a new round.

The model is purely functional. `Date.now()` becomes a `now: int` parameter.
`Math.random()` becomes a `Draw` parameter, a real in [0, 1). Every operation maps
a state to a new state plus the value the source returns or the messages it sends.

Modules, following the source files:

- `Base`: `Option` (JavaScript `null` or a value), and `Math.min` / `Math.max`.
- `Config` (`server/config.js`): every constant, the zone predicates, and facts about the constants.
- `Players` (`server/game/Player.js`): the player record and `createPlayer`.
- `GameState` (`server/game/GameState.js`): the shared state, `reset`, registry operations, `setGameOver`, the snapshot.
- `Events`, `Actions`, `Tick` (`server/game/gameLogic.js`): random events, the four actions, and `updateGame`.
- `Handler` (`server/websocketHandler.js`): per-message handlers. Each returns the new server state, the outbound messages in emission order (to the caller or to everyone), and whether the handler threw.
- `Lifecycle`: the boot state, the two timer callbacks (game loop, event check), runs of steps, and properties of every run.

Energy is a Dafny `real`. Timestamps are `int` milliseconds. Zone timers and the
stash are `nat`. JavaScript truthiness tests on timestamps (`if (result.cooldownEndTimestamp)`)
are modelled as `!= 0`.

Behaviours of the code that a reader might not expect, each stated and proved:

- Decay multipliers: the stabilize factor and the surge factor are two independent `if`s (server/game/gameLogic.js:282-297), so they compound (`Tick.DecayRate`, `Tick.DecayMultipliersCompound`). The "takes priority over events" comment at server/game/gameLogic.js:93 is about the gain of a click only (`Actions.StabilizeDominatesEfficiency`).
- Emergency misuse: the sign of the penalty is decided by `energyLevel < 50` (server/game/gameLogic.js:238), so at exactly 50 it adds the penalty (`Actions.MisuseAtMidpointAdds`). The comments disagree with each other. The inline comments at server/game/gameLogic.js:239 and :243 ("Closer to 0%" / "Closer to 100%") match the code's test against the range midpoint. The comment at server/game/gameLogic.js:237 says the penalty pushes towards the NEAREST danger zone. That zone changes over at 52.5, halfway between 20 and 85, so for levels in [50, 52.5) the code pushes towards the farther, high zone (`Actions.MisuseBelowBandCentreMovesAway`). The comment at server/config.js:37 says the penalty adds 5 anywhere between 20 and 85, but the code subtracts below 50.
- The terminal reason is a sequence of independent assignments in which the last one wins (server/game/gameLogic.js:325-370). The three bands are disjoint, so at most one of them applies (`Tick.TerminalReason`, `Config.ZonesDisjoint`).
- Generate never looks the player up (server/game/gameLogic.js:86-110 ignores its argument), so an unknown sender is not refused (`Handler.GenerateIgnoresCaller`).
- The individual-win path does not stop events or broadcast the outcome; it throws (see Findings).
- The event check is first scheduled by an honoured reset (server/game/gameLogic.js:462-476), not at start-up (server/websocketHandler.js:262-269) (`Lifecycle.NoEventsBeforeFirstReset`).

## Model

| member | source | states |
|---|---|---|
| Config.EnergyRangeCentredOnFifty | server/config.js:4-5 | the valid range is non-empty and its midpoint is 50 |
| Config.ZonesDisjoint | server/config.js:10-14 | low danger threshold < safe min <= safe max < high danger threshold, so no level is in two of the three bands |
| Config.StealGainBelowCost | server/config.js:27-28 | a steal adds less to the stash than it takes from the grid |
| Config.TimeLimitsAreWholeTicks | server/config.js:12-18 | the cooperative target is exactly 120 ticks of 500 ms and the danger limit exactly 20 |
| Config.BaseDecayPerTick | server/config.js:6-18 | undisturbed decay is 0.25 energy per 500 ms tick |
| Config.StealsToIndividualWin | server/config.js:28-30 | 13 successful steals reach the stash target of 25 and 12 do not |
| Players.CreatePlayer | server/game/Player.js:2-11 | a new record carries the given id, a zero stash and a zero end for every cooldown |
| Players.FreshPlayerOffCooldown | server/game/Player.js:5-9 | a fresh player is off cooldown for every action at any time >= 0 |
| Players.ResetStats | server/game/GameState.js:29-38 | resetting a player's stats gives exactly the record a fresh connection with that id would get |
| GameState.Initial | server/game/GameState.js:2-11 | the loaded state has the fresh grid values (energy 50, timers 0, running, no outcome, no effect, no event), no players, and is consistent |
| GameState.InitialEnergyIsSafe | server/game/GameState.js:3 | the starting level lies in the safe band and in neither danger band |
| GameState.UpdatePlayer | server/game/gameLogic.js:126 | writing a field of a registered player's record changes that record only: the grid fields, the set of ids and every other record are kept, and consistency is kept when the id is |
| GameState.Reset | server/game/GameState.js:14-41 | every grid field takes its fresh value; the same ids stay registered, each record reset to a fresh player's; consistency is restored |
| GameState.ResetMatchesInitial | server/game/GameState.js:2-23 | the grid fields after any reset equal the initially loaded ones, and resetting the initial state is the identity |
| GameState.ResetPlayersAreFresh | server/game/GameState.js:29-38 | after a reset every registered player equals `createPlayer(id)`, and a second reset changes nothing |
| GameState.AddPlayer | server/game/GameState.js:43-52 | the record is stored under its id, overwriting, and other records and all grid fields are kept; an empty id is ignored |
| GameState.RemovePlayer | server/game/GameState.js:54-63 | exactly that id leaves the registry, other records and grid fields are kept, and an absent id is a no-op |
| GameState.AddThenRemove | server/game/GameState.js:43-63 | registering a new id and removing it restores the original state |
| GameState.GetPlayer | server/game/GameState.js:65-67 | the lookup finds a record iff the id is registered, and returns that record |
| GameState.SetGameOver | server/game/GameState.js:69-77 | returns true iff the game was running; then it stops the game and records the reason and winner, changing nothing else; otherwise it changes nothing |
| GameState.SetGameOverOneShot | server/game/GameState.js:69-77 | a second terminal transition is refused and the first outcome stays |
| GameState.GetCurrentSnapshot | server/game/GameState.js:79-94 | player count is the number of registered ids, progress is the stable time in whole seconds rounded down, and the other fields are copied |
| GameState.SnapshotIgnoresPlayerRecords | server/game/GameState.js:79-94 | the snapshot depends on the grid fields and the number of players only |
| GameState.SnapshotAfterReset | server/game/GameState.js:14-23 | a snapshot right after a reset shows energy 50, no progress, running, no outcome and no event |
| Events.ChooseEventKind | server/game/gameLogic.js:19-20 | the kind is a surge iff the draw is below one half |
| Events.TriggerRandomEvent | server/game/gameLogic.js:10-38 | nothing happens when the game is over or an event is active; otherwise an event starts iff the draw is at most 0.5, and it ends `EventDurationMs` after now |
| Events.ClearActiveEvent | server/game/gameLogic.js:41-50 | returns true iff an event was active and leaves no event; all other fields are kept |
| Events.TriggerThenClear | server/game/gameLogic.js:10-50 | clearing an event that was just triggered gives back the state from before the trigger |
| Actions.GenerateGain | server/game/gameLogic.js:90-103 | a click gains 0.5 while stabilize is in force, otherwise 2 during an efficiency event, otherwise 1 |
| Actions.ApplyGenerate | server/game/gameLogic.js:86-110 | no-op when over; otherwise only the energy changes, by the gain capped at the maximum, so it never falls and never exceeds the maximum |
| Actions.StabilizeDominatesEfficiency | server/game/gameLogic.js:93-103 | during both stabilize and an efficiency event a click gains only 0.5 |
| Actions.ApplyStabilize | server/game/gameLogic.js:113-140 | ignored when over or for an unknown player; on cooldown it reports the existing end and changes nothing; otherwise it sets the effect end and the player's cooldown and reports both |
| Actions.ApplyStealGrid | server/game/gameLogic.js:143-195 | refusals in the order over, unknown player, cooldown (with its end), insufficient energy, each with no change; success removes exactly the cost, adds exactly the stash gain, sets the cooldown, and reports a win iff the stash reached the target |
| Actions.EmergencyChange | server/game/gameLogic.js:222-247 | boost below the low threshold, coolant above the high one, otherwise misuse: a penalty that is negative iff the level is below the midpoint |
| Actions.ApplyEmergencyAdjust | server/game/gameLogic.js:198-265 | refusals in the order over, unknown player, cooldown, with no change; otherwise the energy moves by the branch's change clamped to the range, and the cooldown is set on every branch, misuse included |
| Actions.EmergencyClampInert | server/game/gameLogic.js:249-254 | from a level in range, no branch leaves the range, so the clamp never changes the result |
| Actions.MisuseAtMidpointAdds | server/game/gameLogic.js:234-246 | at level 50 the adjustment is misuse and raises the level to 55 |
| Actions.MisuseBelowBandCentreMovesAway | server/game/gameLogic.js:234-246 | for levels from 50 up to 52.5 the low danger zone is the nearer one, yet misuse raises the level |
| Tick.DecayRate | server/game/gameLogic.js:277-297 | the per-second decay is 0.5, 0.1 with stabilize, 1.25 with a surge, and 0.25 with both, because the factors compound |
| Tick.DecayAmount | server/game/gameLogic.js:309 | a tick removes half the per-second rate, a positive amount |
| Tick.Decay | server/game/gameLogic.js:310-319 | the decayed level is in range, and equals the plain difference whenever that is in range |
| Tick.TerminalReason | server/game/gameLogic.js:322-370 | coopWin iff in the safe band with enough stable time, shutdown iff low with the limit reached, meltdown iff high with the limit reached; never an individual win |
| Tick.ExpireAndDecay | server/game/gameLogic.js:276-319 | the stabilize end is reset to 0 exactly when it is nonzero and has passed; the event is cleared exactly when its end has passed; the level decays by the rate read at the start of the tick; flags report each change |
| Tick.UpdateZoneTimers | server/game/gameLogic.js:325-370 | stable time grows by one interval iff in the safe band; each danger timer grows iff in its band and is otherwise 0; the flag says a nonzero danger timer was dropped |
| Tick.UpdateGame | server/game/gameLogic.js:269-393 | no-op when over; a running tick always reports either the end of the game or a routine update; energy ends in range, players are untouched, stable time never falls; a terminal reason ends the game with no winner, keeps the decayed level and the updated zone timers, and clears an active event; otherwise `updated` holds iff an effect ended, the level moved or a danger timer was dropped |
| Tick.DecayMultipliersCompound | server/game/gameLogic.js:281-297 | with both stabilize and a surge in force a tick removes 0.125 |
| Tick.QuietTickInSafeBand | server/game/gameLogic.js:309-338 | a quiet tick in the safe band removes 0.25, adds 500 ms of stable time and keeps both danger timers at 0 |
| Tick.InBandTick | server/game/gameLogic.js:325-338 | one tick from high enough inside the safe band keeps the game running, adds 500 ms of stable time and lowers the level by at most 0.625 |
| Tick.DecayBoundedPerTick | server/game/gameLogic.js:277-310 | the decay of one tick is positive and at most `MaxDecayPerTick`, the base rate under a surge over one interval |
| Tick.FreshGameSurvivesFirstTick | server/game/gameLogic.js:269-393 | after a reset the first tick keeps the game running, lowers the level by 0.25 and records one interval of stable time |
| Tick.InBandTicksAccumulate | server/game/gameLogic.js:325-338 | n ticks that stay in the safe band accumulate exactly n × 500 ms of stable time, whatever effects are in force, while the target is not reached |
| Tick.QuietDecayIsExact | server/game/gameLogic.js:277-319 | with no effect or event, n in-band ticks lower the level by exactly 0.25 × n and keep the game running |
| Handler.ReasonText | server/game/gameLogic.js:143-168 | each refusal has its own text: "Game not running", "Player not found", "cooldown" or "Insufficient grid energy", exactly for the matching reason |
| Handler.Broadcast | server/websocketHandler.js:10-17 | a state broadcast goes to everyone and carries exactly the shared snapshot of the current state: no personal stash, the registered count, the energy, progress, running flag, outcome and event |
| Handler.ResendIfActive | server/websocketHandler.js:67-87 | a cooldown is resent iff its end is strictly in the future |
| Handler.ActiveCooldowns | server/websocketHandler.js:65-87 | the resends are exactly the running cooldowns, each to the caller with its end, in the order stabilize, steal, emergency |
| Handler.FailureReport | server/websocketHandler.js:153-167 | a refusal sends the reason to the caller, then resends the cooldown only for a cooldown refusal with a nonzero end |
| Handler.OnConnection | server/websocketHandler.js:42-89 | the fresh player is registered; the caller gets the current snapshot with stash 0 and the event, then the outcome iff the game is over with a reason, and otherwise exactly the running cooldowns of the stored record in the order stabilize, steal, emergency; nothing goes to others |
| Handler.ConnectToRunningGame | server/websocketHandler.js:59-88 | joining a running game at a time >= 0 yields exactly two messages |
| Handler.OnGenerate | server/websocketHandler.js:94-99 | the click is applied exactly as `applyGenerate` does and nothing is sent: only the energy level can change; it rises, up to the maximum, while the game runs, and stays put once it is over |
| Handler.GenerateIgnoresCaller | server/websocketHandler.js:94-99 | the outcome of generate does not depend on the sender's id |
| Handler.OnStabilize | server/websocketHandler.js:102-121 | a cooldown message goes out iff the result carries a nonzero cooldown end; the effect broadcast goes out iff an effect end is also present; at times >= 0 the applied and blocked cases send exactly those messages |
| Handler.OnStealGrid | server/websocketHandler.js:124-168 | refusal: report to the caller only, no change; success: cooldown and stash to the caller, then a state broadcast without a win, or, with a win, the committed game over and an abort |
| Handler.IndividualWinAbortsBeforeBroadcast | server/websocketHandler.js:139-148 | a winning steal stops the game with the winner recorded, but no gameOver message is sent, the handler aborts, and the event and event check are left as they were |
| Handler.IndividualWinWitness | server/websocketHandler.js:139-148 | with stash 24 and a surge running, a steal at time 0 aborts after sending only cooldown and stash, leaving the surge active |
| Handler.OnStealGridIntended | server/websocketHandler.js:130-148 | never aborts and behaves like the as-written handler except on a win; on a win it makes the same commit and sends the same two acks, then stops the event check, clears any active event and broadcasts the final outcome to everyone |
| Handler.IntendedIndividualWinBroadcasts | server/websocketHandler.js:139-148 | with the intended handler a winning steal ends the game, broadcasts the outcome last, clears the event and stops the event check |
| Handler.OnEmergencyAdjust | server/websocketHandler.js:171-205 | success: exactly the cooldown to the caller, a wrong-zone notice iff misused, then a state broadcast (three messages with misuse, two without); refusal: report to the caller only |
| Handler.OnRequestReset | server/websocketHandler.js:209-247 | ignored silently while running; otherwise fresh grid values, the same players zeroed, the event check rescheduled, and reset signal, fresh snapshot, three zero cooldowns and zero stash sent to everyone in that order |
| Handler.OnDisconnect | server/websocketHandler.js:251-257 | only that id is removed, the grid is untouched, and the new state with the reduced count is broadcast |
| Handler.ResetAnnouncements | server/websocketHandler.js:225-241 | an honoured reset sends six messages to everyone: the reset signal, the state, a zero cooldown for each action in the order stabilize, steal, emergency, and a zero stash |
| Handler.Handle | server/websocketHandler.js:42-258 | every handler keeps the server invariant; only a steal can abort, and only into a finished game; a finished game's grid is untouched by anything but a reset request |
| Lifecycle.Boot | server/websocketHandler.js:262-269 | at start-up the state is fresh, nobody is registered and the event check is not scheduled |
| Lifecycle.LoopTick | server/game/gameLogic.js:415-445 | a tick that ends the game broadcasts only the outcome and stops the event check; otherwise messages go out iff something changed, and then they are exactly the state, followed by the stabilize-ended notice iff the effect ended and then the event-ended notice iff the event ended |
| Lifecycle.EventCheck | server/game/gameLogic.js:64-71 | an unscheduled check does nothing; a scheduled one announces a newly started event to everyone |
| Lifecycle.Apply | server/game/gameLogic.js:415-445 | each kind of step keeps the invariant; only a steal can throw; timer steps never touch the players; an event check never (un)schedules itself; on a finished game every step but a reset request leaves the grid and the schedule unchanged |
| Lifecycle.RunPreservesInv | server/game/gameLogic.js:86-319 | every run of steps keeps the invariant: energy in range, registry keyed by id, an outcome exactly when over, no event while the event check is unscheduled |
| Lifecycle.EnergyAlwaysInRange | server/game/gameLogic.js:86-319 | from start-up, energy stays within [0, 100] whatever happens |
| Lifecycle.OutcomeFrozenUntilReset | server/game/GameState.js:69-77 | once over, no run without a reset request restarts the game or changes its outcome or any grid field |
| Lifecycle.StableTimeMonotone | server/game/gameLogic.js:326-338 | between resets the cumulative stable time never decreases |
| Lifecycle.StashMonotone | server/game/GameState.js:29-38 | between resets, while a player stays connected, it stays registered and its stash never decreases |
| Lifecycle.StashMonotoneStep | server/game/gameLogic.js:178 | a single step other than a reset, or the player's own connect or disconnect, keeps the player registered and can only add to its stash |
| Lifecycle.NoEventsBeforeFirstReset | server/game/gameLogic.js:462-476 | while the event check is unscheduled and nobody requests a reset, it stays unscheduled and no event is ever active |
| Lifecycle.BootHasNoEvents | server/websocketHandler.js:262-269 | from start-up, no event is active until a reset is requested |

## Findings

| source | as written | input that shows it | evidently intended | confidence | as-written member | corrected member |
|---|---|---|---|---|---|---|
| server/websocketHandler.js:145-147 | after committing the individual win, the handler calls `gameLogic.stopEventTimer()` and `gameLogic.clearActiveEvent()`. Neither is exported by server/game/gameLogic.js:478-490, so the first call throws. The gameOver broadcast is never sent and the active event is not cleared. | one player with stash 24 steals at time 0 from a running grid at level 50 while a surge is active | stop the event check, clear the event and broadcast the final outcome to everyone | high (not executed) | Handler.OnStealGrid, Handler.IndividualWinAbortsBeforeBroadcast, Handler.IndividualWinWitness | Handler.OnStealGridIntended, Handler.IntendedIndividualWinBroadcasts |

The dispatcher `Handler.Handle` and the runs in `Lifecycle` use the handler as
written, so the run-level properties describe the deployed server. They hold
even though it aborts. The corrected handler also keeps the server invariant; its
contract says so.

## Left out

- Scheduling: `startGameLoop`, `stopGameLoop`, `startEventTimer` and `stopEventTimer` use `setInterval`. A tick and an event check are explicit steps instead (`Lifecycle.Step`). The game loop is restarted at once by an honoured reset, so it is always running and carries no flag. The event check's schedule is the `eventTimerOn` flag.
- Time and randomness: `Date.now()` and `Math.random()` become parameters. The connection handler reads the clock three times (server/websocketHandler.js:68, 75, 82); the model uses one `now`.
- Floating point: energy is an exact real. IEEE-754 rounding of products such as 0.5 × 0.2 × 2.5 is not modelled.
- After the thrown `TypeError` on an individual win, Node's handling of the uncaught exception is not modelled. The process may terminate. The model keeps the committed state and lets later steps run.
- Transport: socket.io, the `io` null guards in the broadcast helpers, and `console.log`. Outbound messages are values in a list. Inbound message kinds with no listener cannot be written in the model.
- The registry is a map. JavaScript plain-object quirks, such as `players["constructor"]` finding an inherited property, are not modelled. Socket ids are ordinary non-empty strings.
- `addPlayer`'s null check on its argument: the only caller always passes a record.
- The `decayAmount > 0` guard (server/game/gameLogic.js:310) is always true with the configured rates. `Tick.DecayAmount` requires a positive rate, and `Tick.DecayRate` always gives one.
- Handler.ConnectToRunningGame: assumes a non-empty id, which every socket id is. An empty id would not be registered, and the lookup could then find some other record.
- Browser code (public/js/controller.js, public/js/display.js) and the HTTP setup in server.js are outside the core.

=== FILE: actions.dfy ===
/** The four player actions. Each takes the state, the acting player's id
    (except generate, which never looks the player up) and the current time,
    and returns the new state with the action's result. Every refusal leaves
    the state untouched. */
module Actions {
  import opened Base
  import opened Config
  import opened Players
  import opened GameState

  /** Why an action was refused, in the order the checks are made. */
  datatype FailReason =
    | GameNotRunning
    | PlayerNotFound
    | Cooldown(cooldownEndTimestamp: int)
    | InsufficientGridEnergy

  /** The stabilize effect is in force at `now`. */
  predicate StabilizeActive(s: State, now: int) {
    now < s.stabilizeEffectEndTime
  }

  /** An event of kind `k` is in force at `now`. */
  predicate EventActive(s: State, k: EventKind, now: int) {
    s.activeEvent.kind == Some(k) && now < s.activeEvent.endTime
  }

  /** `s` and `r` differ at most in the energy level. */
  predicate OnlyEnergyChanged(s: State, r: State) {
    r.(energyLevel := s.energyLevel) == s
  }

  /** The gain of one generate click: stabilize halves it, otherwise an
      efficiency event doubles it. */
  function GenerateGain(s: State, now: int): (gain: real)
    ensures 0.0 < gain <= EventEfficiencyGainMultiplier * BaseEnergyGainPerClick
    ensures StabilizeActive(s, now) ==> gain == 0.5
    ensures !StabilizeActive(s, now) && EventActive(s, Efficiency, now) ==> gain == 2.0
    ensures !StabilizeActive(s, now) && !EventActive(s, Efficiency, now) ==> gain == 1.0
  {
    if StabilizeActive(s, now) then BaseEnergyGainPerClick * StabilizeGainMultiplier
    else if EventActive(s, Efficiency, now) then BaseEnergyGainPerClick * EventEfficiencyGainMultiplier
    else BaseEnergyGainPerClick
  }

  /** `applyGenerate`: no-op when the game is over; otherwise raises the
      energy by the click's gain, capped at the maximum. */
  function ApplyGenerate(s: State, now: int): (r: State)
    ensures !s.gameIsRunning ==> r == s
    ensures OnlyEnergyChanged(s, r)
    ensures s.gameIsRunning ==> r.energyLevel == Min(MaxEnergy, s.energyLevel + GenerateGain(s, now))
    ensures s.gameIsRunning && s.energyLevel < MaxEnergy ==> s.energyLevel < r.energyLevel
    ensures s.energyLevel <= MaxEnergy ==> s.energyLevel <= r.energyLevel <= MaxEnergy
    ensures Valid(s) ==> Valid(r)
  {
    if !s.gameIsRunning then s
    else s.(energyLevel := Min(MaxEnergy, s.energyLevel + GenerateGain(s, now)))
  }

  /** A click during an efficiency event still gains only half a point while
      the stabilize effect is in force. */
  lemma StabilizeDominatesEfficiency(s: State, now: int)
    requires s.gameIsRunning && s.energyLevel + 0.5 <= MaxEnergy
    requires StabilizeActive(s, now) && EventActive(s, Efficiency, now)
    ensures ApplyGenerate(s, now).energyLevel == s.energyLevel + 0.5
  {
  }

  /** What `applyStabilize` returns. */
  datatype StabilizeResult =
    | StabilizeIgnored
    | StabilizeBlocked(cooldownEndTimestamp: int)
    | StabilizeApplied(cooldownEndTimestamp: int, effectEndTimestamp: int)

  /** `applyStabilize`: ignored when the game is over or the player is
      unknown; on cooldown it reports the existing cooldown end and changes
      nothing; otherwise it starts the global effect and the player's cooldown. */
  function ApplyStabilize(s: State, id: PlayerId, now: int): (r: Effect<StabilizeResult>)
    ensures !s.gameIsRunning || id !in s.players ==> r == Effect(s, StabilizeIgnored)
    ensures s.gameIsRunning && id in s.players && s.players[id].OnCooldown(Stabilize, now) ==>
      r == Effect(s, StabilizeBlocked(s.players[id].stabilizeCooldownEnd))
    ensures r.result.StabilizeApplied? <==>
      s.gameIsRunning && id in s.players && !s.players[id].OnCooldown(Stabilize, now)
    ensures r.result.StabilizeApplied? ==>
      && r.result == StabilizeApplied(now + StabilizeCooldownMs, now + StabilizeDurationMs)
      && StabilizeActive(r.state, now)
      && r.state.stabilizeEffectEndTime == now + StabilizeDurationMs
      && GetPlayer(r.state, id) == Some(s.players[id].(stabilizeCooldownEnd := now + StabilizeCooldownMs))
      && r.state.players[id].OnCooldown(Stabilize, now)
      && r.state.players.Keys == s.players.Keys
      && (forall k :: k != id && k in s.players ==> r.state.players[k] == s.players[k])
      && r.state.(players := s.players, stabilizeEffectEndTime := s.stabilizeEffectEndTime) == s
    ensures Valid(s) ==> Valid(r.state)
  {
    if !s.gameIsRunning then Effect(s, StabilizeIgnored)
    else match GetPlayer(s, id)
      case None => Effect(s, StabilizeIgnored)
      case Some(p) =>
        if now >= p.stabilizeCooldownEnd then
          var p' := p.(stabilizeCooldownEnd := now + StabilizeCooldownMs);
          var s' := UpdatePlayer(s, id, p').(stabilizeEffectEndTime := now + StabilizeDurationMs);
          Effect(s', StabilizeApplied(p'.stabilizeCooldownEnd, s'.stabilizeEffectEndTime))
        else Effect(s, StabilizeBlocked(p.stabilizeCooldownEnd))
  }

  /** What `applyStealGrid` returns. */
  datatype StealResult =
    | StealFailed(reason: FailReason)
    | StealSucceeded(cooldownEndTimestamp: int, newStashAmount: nat, didWin: bool)

  /** `applyStealGrid`: refusals are checked in the order game over, unknown
      player, cooldown, insufficient energy, and change nothing. A steal
      moves exactly `StealGridCost` out of the grid and `StealStashGain` into
      the stash, starts the cooldown and reports whether the stash reached
      the win target. */
  function ApplyStealGrid(s: State, id: PlayerId, now: int): (r: Effect<StealResult>)
    ensures !s.gameIsRunning ==> r.result == StealFailed(GameNotRunning)
    ensures s.gameIsRunning && id !in s.players ==> r.result == StealFailed(PlayerNotFound)
    ensures s.gameIsRunning && id in s.players && s.players[id].OnCooldown(StealGrid, now) ==>
      r.result == StealFailed(Cooldown(s.players[id].stealGridCooldownEnd))
    ensures (s.gameIsRunning && id in s.players && !s.players[id].OnCooldown(StealGrid, now) &&
             s.energyLevel < StealGridCost) ==> r.result == StealFailed(InsufficientGridEnergy)
    ensures r.result.StealFailed? ==> r.state == s
    ensures r.result.StealSucceeded? <==>
      s.gameIsRunning && id in s.players && !s.players[id].OnCooldown(StealGrid, now) &&
      s.energyLevel >= StealGridCost
    ensures r.result.StealSucceeded? ==>
      var p := s.players[id];
      var p' := p.(personalStash := p.personalStash + StealStashGain,
                   stealGridCooldownEnd := now + StealCooldownMs);
      && r.state.energyLevel == s.energyLevel - StealGridCost
      && GetPlayer(r.state, id) == Some(p')
      && r.result == StealSucceeded(now + StealCooldownMs, p'.personalStash, p'.personalStash >= StashWinTarget)
      && r.state.players.Keys == s.players.Keys
      && (forall k :: k != id && k in s.players ==> r.state.players[k] == s.players[k])
      && r.state.(players := s.players, energyLevel := s.energyLevel) == s
    ensures Valid(s) ==> Valid(r.state)
  {
    if !s.gameIsRunning then Effect(s, StealFailed(GameNotRunning))
    else match GetPlayer(s, id)
      case None => Effect(s, StealFailed(PlayerNotFound))
      case Some(p) =>
        if now < p.stealGridCooldownEnd then Effect(s, StealFailed(Cooldown(p.stealGridCooldownEnd)))
        else if s.energyLevel < StealGridCost then Effect(s, StealFailed(InsufficientGridEnergy))
        else
          var p' := p.(personalStash := p.personalStash + StealStashGain,
                       stealGridCooldownEnd := now + StealCooldownMs);
          var s' := UpdatePlayer(s, id, p').(energyLevel := Max(MinEnergy, s.energyLevel - StealGridCost));
          Effect(s', StealSucceeded(p'.stealGridCooldownEnd, p'.personalStash,
                                    p'.personalStash >= StashWinTarget))
  }

  /** The signed energy change of an emergency adjustment, and whether it
      counts as misuse. */
  datatype Adjustment = Adjustment(delta: real, misused: bool)

  /** The adjustment at level `e`: a boost below the low danger threshold, a
      coolant above the high one, and otherwise a penalty that subtracts
      below the midpoint of the range and adds from the midpoint up. */
  function EmergencyChange(e: real): (c: Adjustment)
    ensures c.misused <==> !InDangerLow(e) && !InDangerHigh(e)
    ensures InDangerLow(e) ==> c.delta == EmergencyBoostAmount
    ensures InDangerHigh(e) ==> c.delta == -EmergencyCoolantAmount
    ensures c.misused ==> (c.delta < 0.0 <==> e < (MaxEnergy + MinEnergy) / 2.0)
    ensures c.misused ==> (c.delta == EmergencyPenaltyWrongZone || c.delta == -EmergencyPenaltyWrongZone)
  {
    if e < DangerLowThreshold then Adjustment(EmergencyBoostAmount, false)
    else if e > DangerHighThreshold then Adjustment(-EmergencyCoolantAmount, false)
    else if e < (MaxEnergy + MinEnergy) / 2.0 then Adjustment(-EmergencyPenaltyWrongZone, true)
    else Adjustment(EmergencyPenaltyWrongZone, true)
  }

  /** What `applyEmergencyAdjust` returns. */
  datatype EmergencyResult =
    | EmergencyFailed(reason: FailReason)
    | EmergencyApplied(cooldownEndTimestamp: int, misused: bool)

  /** `applyEmergencyAdjust`: refusals in the order game over, unknown
      player, cooldown, each changing nothing. Otherwise the energy moves by
      `EmergencyChange` clamped to the valid range and the cooldown starts,
      on every branch including misuse. */
  function ApplyEmergencyAdjust(s: State, id: PlayerId, now: int): (r: Effect<EmergencyResult>)
    ensures !s.gameIsRunning ==> r.result == EmergencyFailed(GameNotRunning)
    ensures s.gameIsRunning && id !in s.players ==> r.result == EmergencyFailed(PlayerNotFound)
    ensures s.gameIsRunning && id in s.players && s.players[id].OnCooldown(EmergencyAdjust, now) ==>
      r.result == EmergencyFailed(Cooldown(s.players[id].emergencyAdjustCooldownEnd))
    ensures r.result.EmergencyFailed? ==> r.state == s
    ensures r.result.EmergencyApplied? <==>
      s.gameIsRunning && id in s.players && !s.players[id].OnCooldown(EmergencyAdjust, now)
    ensures r.result.EmergencyApplied? ==>
      var change := EmergencyChange(s.energyLevel);
      && InEnergyRange(r.state.energyLevel)
      && (InEnergyRange(s.energyLevel + change.delta) ==> r.state.energyLevel == s.energyLevel + change.delta)
      && (s.energyLevel + change.delta > MaxEnergy ==> r.state.energyLevel == MaxEnergy)
      && (s.energyLevel + change.delta < MinEnergy ==> r.state.energyLevel == MinEnergy)
      && r.result == EmergencyApplied(now + EmergencyAdjustCooldownMs, change.misused)
      && GetPlayer(r.state, id) == Some(s.players[id].(emergencyAdjustCooldownEnd := now + EmergencyAdjustCooldownMs))
      && r.state.players.Keys == s.players.Keys
      && (forall k :: k != id && k in s.players ==> r.state.players[k] == s.players[k])
      && r.state.(players := s.players, energyLevel := s.energyLevel) == s
    ensures Valid(s) ==> Valid(r.state)
  {
    if !s.gameIsRunning then Effect(s, EmergencyFailed(GameNotRunning))
    else match GetPlayer(s, id)
      case None => Effect(s, EmergencyFailed(PlayerNotFound))
      case Some(p) =>
        if now < p.emergencyAdjustCooldownEnd then
          Effect(s, EmergencyFailed(Cooldown(p.emergencyAdjustCooldownEnd)))
        else
          var change := EmergencyChange(s.energyLevel);
          var energy := Max(MinEnergy, Min(MaxEnergy, s.energyLevel + change.delta));
          var p' := p.(emergencyAdjustCooldownEnd := now + EmergencyAdjustCooldownMs);
          var s' := UpdatePlayer(s, id, p').(energyLevel := energy);
          Effect(s', EmergencyApplied(p'.emergencyAdjustCooldownEnd, change.misused))
  }

  /** From any level in the valid range, the emergency change never leaves
      the range, so the clamp never bites: every branch moves the energy by
      exactly its nominal amount. */
  lemma EmergencyClampInert(s: State, id: PlayerId, now: int)
    requires InEnergyRange(s.energyLevel)
    requires ApplyEmergencyAdjust(s, id, now).result.EmergencyApplied?
    ensures ApplyEmergencyAdjust(s, id, now).state.energyLevel
            == s.energyLevel + EmergencyChange(s.energyLevel).delta
  {
  }

  /** Between the midpoint of the range and the midpoint of the two danger
      thresholds, misuse pushes the level up, towards the high danger zone,
      although the low danger zone is the nearer one. */
  lemma MisuseBelowBandCentreMovesAway(e: real)
    requires (MaxEnergy + MinEnergy) / 2.0 <= e < (DangerLowThreshold + DangerHighThreshold) / 2.0
    ensures e - DangerLowThreshold < DangerHighThreshold - e
    ensures EmergencyChange(e).misused && EmergencyChange(e).delta > 0.0
  {
  }

  /** At exactly the midpoint 50 an emergency adjustment is misuse and adds
      the penalty. */
  lemma MisuseAtMidpointAdds(s: State, id: PlayerId, now: int)
    requires s.energyLevel == 50.0
    requires s.gameIsRunning && id in s.players && !s.players[id].OnCooldown(EmergencyAdjust, now)
    ensures ApplyEmergencyAdjust(s, id, now).state.energyLevel == 55.0
    ensures ApplyEmergencyAdjust(s, id, now).result.misused
  {
  }
}

=== FILE: base.dfy ===
/** Small shared vocabulary: an optional value (JavaScript's `null` or a value)
    and the two clamping helpers the server uses (`Math.min`, `Math.max`). */
module Base {

  /** A value that may be absent; `None` stands for JavaScript's `null`. */
  datatype Option<+T> = None | Some(value: T)

  /** `Math.min` on two numbers. */
  function Min(a: real, b: real): (m: real)
    ensures m <= a && m <= b
    ensures m == a || m == b
  {
    if a <= b then a else b
  }

  /** `Math.max` on two numbers. */
  function Max(a: real, b: real): (m: real)
    ensures a <= m && b <= m
    ensures m == a || m == b
  {
    if a >= b then a else b
  }
}

=== FILE: config.dfy ===
/** The tunable constants of the game server, one `const` per configuration
    entry, and the facts about them that the rest of the model relies on. */
module Config {

  // Core parameters
  const MaxEnergy: real := 100.0
  const MinEnergy: real := 0.0
  /** Energy points lost per second. */
  const BaseEnergyDecayRate: real := 0.5
  /** Energy points gained per generate click. */
  const BaseEnergyGainPerClick: real := 1.0

  // Zones and win/loss timings
  const SafeZoneMin: real := 40.0
  const SafeZoneMax: real := 70.0
  const CoopWinDurationSeconds: nat := 60
  const DangerLowThreshold: real := 20.0
  const DangerHighThreshold: real := 85.0
  const DangerTimeLimitSeconds: nat := 10

  // Game loop
  const GameLoopIntervalMs: nat := 500

  // Stabilize action
  const StabilizeDurationMs: int := 5000
  const StabilizeCooldownMs: int := 15000
  const StabilizeDecayMultiplier: real := 0.2
  const StabilizeGainMultiplier: real := 0.5

  // Steal action
  const StealGridCost: real := 5.0
  const StealStashGain: nat := 2
  const StealCooldownMs: int := 10000
  const StashWinTarget: nat := 25

  // Emergency adjustment action
  const EmergencyAdjustCooldownMs: int := 20000
  const EmergencyBoostAmount: real := 15.0
  const EmergencyCoolantAmount: real := 20.0
  const EmergencyPenaltyWrongZone: real := 5.0

  // Random events
  const EventCheckIntervalMs: int := 15000
  const EventChancePercent: real := 50.0
  const EventDurationMs: int := 10000
  const EventSurgeDecayMultiplier: real := 2.5
  const EventEfficiencyGainMultiplier: real := 2.0

  /** The two kinds of random event. */
  datatype EventKind = Surge | Efficiency

  /** The catalogue the event scheduler draws from, in configuration order. */
  const EventTypes: seq<EventKind> := [Surge, Efficiency]

  /** Cumulative in-band time needed for the cooperative win, in ms. */
  const CoopWinTargetMs: nat := CoopWinDurationSeconds * 1000
  /** Continuous time allowed in a danger band, in ms. */
  const DangerTimeLimitMs: nat := DangerTimeLimitSeconds * 1000

  /** Energy lies in the valid range. */
  predicate InEnergyRange(e: real) {
    MinEnergy <= e <= MaxEnergy
  }

  /** The stable band counted towards the cooperative win (bounds inclusive). */
  predicate InSafeZone(e: real) {
    SafeZoneMin <= e <= SafeZoneMax
  }

  /** Strictly below the low danger threshold. */
  predicate InDangerLow(e: real) {
    e < DangerLowThreshold
  }

  /** Strictly above the high danger threshold. */
  predicate InDangerHigh(e: real) {
    e > DangerHighThreshold
  }

  /** The valid range is non-empty and centred on 50, the starting level. */
  lemma EnergyRangeCentredOnFifty()
    ensures MinEnergy < MaxEnergy
    ensures (MaxEnergy + MinEnergy) / 2.0 == 50.0
  {
  }

  /** The thresholds are ordered, so the three bands are pairwise disjoint:
      no energy level is in more than one of them. */
  lemma ZonesDisjoint(e: real)
    ensures DangerLowThreshold < SafeZoneMin <= SafeZoneMax < DangerHighThreshold
    ensures !(InSafeZone(e) && InDangerLow(e))
    ensures !(InSafeZone(e) && InDangerHigh(e))
    ensures !(InDangerLow(e) && InDangerHigh(e))
  {
  }

  /** A steal removes more from the grid than it adds to the stash. */
  lemma StealGainBelowCost()
    ensures 0.0 < StealStashGain as real < StealGridCost
  {
  }

  /** Both time limits are whole numbers of game-loop ticks: 120 in-band
      ticks for the cooperative win and 20 consecutive danger ticks. */
  lemma TimeLimitsAreWholeTicks()
    ensures CoopWinTargetMs % GameLoopIntervalMs == 0
    ensures CoopWinTargetMs / GameLoopIntervalMs == 120
    ensures DangerTimeLimitMs % GameLoopIntervalMs == 0
    ensures DangerTimeLimitMs / GameLoopIntervalMs == 20
  {
  }

  /** With 500 ms ticks the undisturbed decay is a quarter point per tick. */
  lemma BaseDecayPerTick()
    ensures BaseEnergyDecayRate * (GameLoopIntervalMs as real / 1000.0) == 0.25
  {
  }

  /** Thirteen successful steals reach the stash target, twelve do not. */
  lemma StealsToIndividualWin()
    ensures 12 * StealStashGain < StashWinTarget <= 13 * StealStashGain
  {
  }
}

=== FILE: events.dfy ===
/** Random events: the periodic trigger (with `Math.random()` draws passed in
    as parameters) and the clearing of the active event. Events never touch
    the energy level; they only change the rates used by generate and by the
    game loop. */
module Events {
  import opened Base
  import opened Config
  import opened GameState

  /** A value of `Math.random()`: a real in [0, 1). */
  type Draw = r: real | 0.0 <= r < 1.0 witness 0.0

  /** A draw `u` in [0, 1) passes the event chance when `u * 100` is at
      most the configured percentage. */
  predicate ChancePasses(chanceDraw: real) {
    chanceDraw * 100.0 <= EventChancePercent
  }

  /** The event kind picked by a uniform draw in [0, 1): the draw scaled by
      the catalogue size and rounded down indexes the catalogue. */
  function ChooseEventKind(kindDraw: Draw): (k: EventKind)
    ensures k == Surge <==> kindDraw < 0.5
  {
    var i := (kindDraw * |EventTypes| as real).Floor;
    assert 0 <= i < |EventTypes|;
    EventTypes[i]
  }

  /** `triggerRandomEvent`: when the game runs and no event is active, a
      passing chance draw activates one event for `EventDurationMs` from
      `now` and returns it; otherwise nothing changes and `None` is returned. */
  function TriggerRandomEvent(s: State, now: int, chanceDraw: Draw, kindDraw: Draw): (r: Effect<Option<ActiveEvent>>)
    ensures !s.gameIsRunning || s.activeEvent.kind.Some? ==> r == Effect(s, None)
    ensures s.gameIsRunning && s.activeEvent.kind.None? ==> (r.result.Some? <==> chanceDraw <= 0.5)
    ensures r.result.None? ==> r.state == s
    ensures r.result.Some? ==>
      && r.result.value == ActiveEvent(Some(ChooseEventKind(kindDraw)), now + EventDurationMs)
      && r.state == s.(activeEvent := r.result.value)
    ensures Valid(s) ==> Valid(r.state)
  {
    if !s.gameIsRunning || s.activeEvent.kind.Some? then Effect(s, None)
    else if ChancePasses(chanceDraw) then
      var ev := ActiveEvent(Some(ChooseEventKind(kindDraw)), now + EventDurationMs);
      Effect(s.(activeEvent := ev), Some(ev))
    else Effect(s, None)
  }

  /** `clearActiveEvent`: reports whether an event was active and leaves no
      event behind; every other field is kept. */
  function ClearActiveEvent(s: State): (r: Effect<bool>)
    ensures r.result <==> s.activeEvent.kind.Some?
    ensures r.state.(activeEvent := s.activeEvent) == s
    ensures r.state.activeEvent.kind.None?
    ensures Valid(s) ==> r.state.activeEvent == NoEvent && Valid(r.state)
  {
    if s.activeEvent.kind.Some? then Effect(s.(activeEvent := NoEvent), true)
    else Effect(s, false)
  }

  /** Clearing an event that the trigger has just started gives back the
      state from before the trigger. */
  lemma TriggerThenClear(s: State, now: int, chanceDraw: Draw, kindDraw: Draw)
    requires Valid(s)
    requires TriggerRandomEvent(s, now, chanceDraw, kindDraw).result.Some?
    ensures ClearActiveEvent(TriggerRandomEvent(s, now, chanceDraw, kindDraw).state) == Effect(s, true)
  {
  }
}

=== FILE: game_state.dfy ===
/** The single shared game state: the grid fields (energy, zone timers,
    stabilize effect, active event, running flag, final outcome) and the
    registry of players keyed by connection id. */
module GameState {
  import opened Base
  import opened Config
  import opened Players

  /** Why a game ended. */
  datatype Reason = CoopWin | Shutdown | Meltdown | IndividualWin

  /** The final outcome; both parts are `None` while the game runs. */
  datatype Outcome = Outcome(reason: Option<Reason>, winnerId: Option<PlayerId>)

  /** The current random event; `kind == None` means no event. */
  datatype ActiveEvent = ActiveEvent(kind: Option<EventKind>, endTime: int)

  const NoEvent: ActiveEvent := ActiveEvent(None, 0)
  const NoOutcome: Outcome := Outcome(None, None)
  const InitialEnergy: real := 50.0

  datatype State = State(
    energyLevel: real,
    players: map<PlayerId, Player>,
    cumulativeStableTimeMs: nat,
    continuousTimeInDangerLowMs: nat,
    continuousTimeInDangerHighMs: nat,
    gameIsRunning: bool,
    finalGameOutcome: Outcome,
    stabilizeEffectEndTime: int,
    activeEvent: ActiveEvent)

  /** The new state produced by an operation, with the value it returns. */
  datatype Effect<R> = Effect(state: State, result: R)

  /** `a` and `b` agree on every grid field; only the registries may differ. */
  predicate SameGrid(a: State, b: State) {
    a.(players := b.players) == b
  }

  /** Every registered record is stored under its own id. */
  predicate WellKeyed(players: map<PlayerId, Player>) {
    forall id :: id in players ==> players[id].id == id
  }

  /** The consistency every reachable state keeps: energy in range, the
      registry keyed by id, an outcome exactly when the game is over, and an
      event end time only while an event is active. */
  predicate Valid(s: State) {
    && InEnergyRange(s.energyLevel)
    && WellKeyed(s.players)
    && (s.gameIsRunning ==> s.finalGameOutcome == NoOutcome)
    && (!s.gameIsRunning ==> s.finalGameOutcome.reason.Some?)
    && (s.activeEvent.kind.None? ==> s.activeEvent.endTime == 0)
  }

  /** The grid fields of a fresh game. */
  predicate FreshGrid(s: State) {
    && s.energyLevel == InitialEnergy
    && s.cumulativeStableTimeMs == 0
    && s.continuousTimeInDangerLowMs == 0
    && s.continuousTimeInDangerHighMs == 0
    && s.gameIsRunning
    && s.finalGameOutcome == NoOutcome
    && s.stabilizeEffectEndTime == 0
    && s.activeEvent == NoEvent
  }

  /** The state object as the server process loads it. */
  function Initial(): (s: State)
    ensures FreshGrid(s) && s.players == map[]
    ensures Valid(s)
  {
    State(InitialEnergy, map[], 0, 0, 0, true, NoOutcome, 0, NoEvent)
  }

  /** The starting level lies in the safe band and in neither danger band. */
  lemma InitialEnergyIsSafe()
    ensures InSafeZone(InitialEnergy)
    ensures !InDangerLow(InitialEnergy) && !InDangerHigh(InitialEnergy)
  {
  }

  /** `reset()`: every grid field back to its fresh value, and every
      registered player's cooldowns and stash zeroed, keeping the same ids. */
  function Reset(s: State): (r: State)
    ensures FreshGrid(r)
    ensures r.players.Keys == s.players.Keys
    ensures forall id :: id in r.players ==> r.players[id] == CreatePlayer(s.players[id].id)
    ensures WellKeyed(s.players) ==> Valid(r)
  {
    var players := map id | id in s.players :: ResetStats(s.players[id]);
    State(InitialEnergy, players, 0, 0, 0, true, NoOutcome, 0, NoEvent)
  }

  /** The grid fields a reset writes are those of the freshly loaded object,
      so resetting the initial state changes nothing. */
  lemma ResetMatchesInitial(s: State)
    ensures SameGrid(Reset(s), Initial())
    ensures Reset(Initial()) == Initial()
  {
  }

  /** In a well-keyed registry, a reset leaves each player exactly as a
      fresh connection would have it; a second reset changes nothing. */
  lemma ResetPlayersAreFresh(s: State)
    requires WellKeyed(s.players)
    ensures forall id :: id in Reset(s).players ==> Reset(s).players[id] == CreatePlayer(id)
    ensures Reset(Reset(s)) == Reset(s)
  {
  }

  /** `addPlayer`: store the record under its id, overwriting any record
      already there; a record with an empty (falsy) id is ignored. */
  function AddPlayer(s: State, p: Player): (r: State)
    ensures SameGrid(r, s)
    ensures p.id == "" ==> r == s
    ensures p.id != "" ==> r.players.Keys == s.players.Keys + {p.id}
    ensures p.id != "" ==> GetPlayer(r, p.id) == Some(p)
    ensures forall id :: id != p.id && id in s.players ==> r.players[id] == s.players[id]
    ensures Valid(s) ==> Valid(r)
  {
    if p.id != "" then s.(players := s.players[p.id := p]) else s
  }

  /** `removePlayer`: delete that id only; absent ids are a no-op. */
  function RemovePlayer(s: State, id: PlayerId): (r: State)
    ensures SameGrid(r, s)
    ensures r.players.Keys == s.players.Keys - {id}
    ensures forall k :: k in r.players ==> r.players[k] == s.players[k]
    ensures id !in s.players ==> r == s
    ensures Valid(s) ==> Valid(r)
  {
    if id in s.players then s.(players := s.players - {id}) else s
  }

  /** Registering a new id and then removing it restores the state. */
  lemma AddThenRemove(s: State, p: Player)
    requires p.id != "" && p.id !in s.players
    ensures RemovePlayer(AddPlayer(s, p), p.id) == s
  {
  }

  /** `getPlayer`: the record stored under `id`, if any. */
  function GetPlayer(s: State, id: PlayerId): (r: Option<Player>)
    ensures r.Some? <==> id in s.players
    ensures r.Some? ==> r.value == s.players[id]
  {
    if id in s.players then Some(s.players[id]) else None
  }

  /** Replace the record stored under an id that is already registered
      (the in-place mutation of the object `getPlayer` returned). */
  function UpdatePlayer(s: State, id: PlayerId, p: Player): (r: State)
    requires id in s.players
    ensures SameGrid(r, s)
    ensures r.players.Keys == s.players.Keys
    ensures GetPlayer(r, id) == Some(p)
    ensures forall k :: k != id && k in s.players ==> r.players[k] == s.players[k]
    ensures Valid(s) && p.id == s.players[id].id ==> Valid(r)
  {
    s.(players := s.players[id := p])
  }

  /** `setGameOver`: the one-shot running-to-over transition. The flag says
      whether this call ended the game. */
  function SetGameOver(s: State, reason: Reason, winnerId: Option<PlayerId>): (r: Effect<bool>)
    ensures r.result <==> s.gameIsRunning
    ensures !r.result ==> r.state == s
    ensures r.result ==> !r.state.gameIsRunning && r.state.finalGameOutcome == Outcome(Some(reason), winnerId)
    ensures r.state.(gameIsRunning := s.gameIsRunning, finalGameOutcome := s.finalGameOutcome) == s
    ensures Valid(s) ==> Valid(r.state)
  {
    if !s.gameIsRunning then Effect(s, false)
    else Effect(s.(gameIsRunning := false, finalGameOutcome := Outcome(Some(reason), winnerId)), true)
  }

  /** A second terminal transition, whatever its reason, is refused and
      leaves the first outcome in place. */
  lemma SetGameOverOneShot(s: State, first: Reason, w1: Option<PlayerId>, second: Reason, w2: Option<PlayerId>)
    requires s.gameIsRunning
    ensures SetGameOver(SetGameOver(s, first, w1).state, second, w2) == Effect(SetGameOver(s, first, w1).state, false)
    ensures SetGameOver(s, first, w1).state.finalGameOutcome == Outcome(Some(first), w1)
  {
  }

  /** The state summary sent to clients. `personalStash` is present only in
      the bootstrap copy sent to a connecting player. */
  datatype Snapshot = Snapshot(
    energyLevel: real,
    playerCount: nat,
    coopWinTargetSeconds: nat,
    coopWinProgressSeconds: nat,
    gameIsRunning: bool,
    finalOutcomeReason: Option<Reason>,
    finalOutcomeWinner: Option<PlayerId>,
    activeEventType: Option<EventKind>,
    activeEventEndTime: int,
    stashWinTarget: nat,
    personalStash: Option<nat>)

  /** `getCurrentSnapshot`: a read-only projection of the state. */
  function GetCurrentSnapshot(s: State): (snap: Snapshot)
    ensures snap.playerCount == |s.players.Keys|
    ensures snap.coopWinProgressSeconds * 1000 <= s.cumulativeStableTimeMs < snap.coopWinProgressSeconds * 1000 + 1000
    ensures snap.coopWinTargetSeconds == CoopWinDurationSeconds
    ensures snap.stashWinTarget == StashWinTarget
    ensures snap.energyLevel == s.energyLevel && snap.gameIsRunning == s.gameIsRunning
    ensures snap.finalOutcomeReason == s.finalGameOutcome.reason
    ensures snap.finalOutcomeWinner == s.finalGameOutcome.winnerId
    ensures snap.activeEventType == s.activeEvent.kind
    ensures snap.activeEventEndTime == s.activeEvent.endTime
    ensures snap.personalStash.None?
  {
    Snapshot(s.energyLevel, |s.players.Keys|, CoopWinDurationSeconds,
             s.cumulativeStableTimeMs / 1000, s.gameIsRunning,
             s.finalGameOutcome.reason, s.finalGameOutcome.winnerId,
             s.activeEvent.kind, s.activeEvent.endTime, StashWinTarget, None)
  }

  /** A snapshot depends only on the grid fields and the number of players. */
  lemma SnapshotIgnoresPlayerRecords(a: State, b: State)
    requires SameGrid(a, b) && a.players.Keys == b.players.Keys
    ensures GetCurrentSnapshot(a) == GetCurrentSnapshot(b)
  {
  }

  /** A snapshot taken right after a reset reports a fresh running game
      with the same number of players. */
  lemma SnapshotAfterReset(s: State)
    ensures GetCurrentSnapshot(Reset(s)) ==
      Snapshot(InitialEnergy, |s.players.Keys|, CoopWinDurationSeconds, 0, true,
               None, None, None, 0, StashWinTarget, None)
  {
  }
}

=== FILE: handler.dfy ===
/** The per-connection message handlers: for each inbound message, the state
    commit made and the outbound messages sent to the caller or to everyone,
    in emission order. */
module Handler {
  import opened Base
  import opened Config
  import opened Players
  import opened GameState
  import opened Events
  import opened Actions

  /** Who receives an outbound message. */
  datatype Audience = Caller | Everyone

  /** The outbound message kinds and their payloads. */
  datatype Message =
    | GameStateUpdate(snapshot: Snapshot)
    | EventUpdate(event: ActiveEvent)
    | StabilizeEffectUpdate(active: bool, endTimestamp: int)
    | GameOver(outcome: Outcome)
    | ActionCooldown(action: Action, cooldownEndTimestamp: int)
    | PersonalStashUpdate(personalStash: nat)
    | ActionFailed(action: Action, reason: string)
    | GameReset

  datatype Outbound = Outbound(to: Audience, msg: Message)

  /** The inbound messages of one connection, including the transport's
      connect and disconnect notifications. */
  datatype Inbound =
    | Connection
    | Generate
    | StabilizeRequest
    | StealGridRequest
    | EmergencyAdjustRequest
    | RequestReset
    | Disconnect

  /** The server-wide state: the game and whether the periodic event check
      is scheduled. */
  datatype Server = Server(game: State, eventTimerOn: bool)

  /** The result of handling one message. `aborted` means the handler threw
      after the state commit; messages after the throw are not sent. */
  datatype Reply = Reply(server: Server, out: seq<Outbound>, aborted: bool)

  /** The consistency every reachable server state keeps: the game is
      `Valid`, and no event is active while the event check is unscheduled. */
  predicate Inv(sv: Server) {
    Valid(sv.game) && (!sv.eventTimerOn ==> sv.game.activeEvent == NoEvent)
  }

  /** The reason text an action result carries to the client. */
  function ReasonText(f: FailReason): (t: string)
    ensures t == "cooldown" <==> f.Cooldown?
    ensures f.GameNotRunning? <==> t == "Game not running"
    ensures f.PlayerNotFound? <==> t == "Player not found"
    ensures f.InsufficientGridEnergy? <==> t == "Insufficient grid energy"
  {
    match f
    case GameNotRunning => "Game not running"
    case PlayerNotFound => "Player not found"
    case Cooldown(_) => "cooldown"
    case InsufficientGridEnergy => "Insufficient grid energy"
  }

  /** The feedback text sent when an emergency adjustment was misused. */
  const WrongZoneText: string := "Used in wrong zone!"

  /** The state broadcast to everyone: the snapshot without a personal
      stash, so every client sees the same summary. */
  function Broadcast(g: State): (o: Outbound)
    ensures o.to == Everyone && o.msg.GameStateUpdate?
    ensures o.msg.snapshot == GetCurrentSnapshot(g)
  {
    Outbound(Everyone, GameStateUpdate(GetCurrentSnapshot(g)))
  }

  /** The cooldown resend for action `a` when its end lies strictly after `now`. */
  function ResendIfActive(p: Player, a: Action, now: int): (out: seq<Outbound>)
    ensures |out| <= 1
    ensures out != [] <==> p.OnCooldown(a, now)
    ensures out != [] ==> out[0] == Outbound(Caller, ActionCooldown(a, p.CooldownEnd(a)))
  {
    if p.CooldownEnd(a) > now then [Outbound(Caller, ActionCooldown(a, p.CooldownEnd(a)))] else []
  }

  /** Position of an action in the order the connection handler resends
      cooldowns. */
  function ActionOrder(a: Action): nat {
    match a
    case Stabilize => 0
    case StealGrid => 1
    case EmergencyAdjust => 2
  }

  /** The cooldowns of `p` still running at `now`, each resent to the
      caller with its end, in the order stabilize, steal, emergency. */
  function ActiveCooldowns(p: Player, now: int): (out: seq<Outbound>)
    ensures |out| <= 3
    ensures forall o :: o in out ==>
      o.to == Caller && o.msg.ActionCooldown? && p.OnCooldown(o.msg.action, now)
      && o.msg.cooldownEndTimestamp == p.CooldownEnd(o.msg.action)
    ensures forall a: Action :: p.OnCooldown(a, now) <==>
      Outbound(Caller, ActionCooldown(a, p.CooldownEnd(a))) in out
    ensures forall i, j :: 0 <= i < j < |out| ==>
      out[i].msg.ActionCooldown? && out[j].msg.ActionCooldown? &&
      ActionOrder(out[i].msg.action) < ActionOrder(out[j].msg.action)
  {
    ResendIfActive(p, Stabilize, now) + ResendIfActive(p, StealGrid, now)
    + ResendIfActive(p, EmergencyAdjust, now)
  }

  /** The failure report for a refused action: the reason to the caller,
      then the cooldown end again when the refusal was a cooldown whose
      end is non-zero. */
  function FailureReport(a: Action, f: FailReason): (out: seq<Outbound>)
    ensures 1 <= |out| <= 2
    ensures out[0] == Outbound(Caller, ActionFailed(a, ReasonText(f)))
    ensures |out| == 2 <==> f.Cooldown? && f.cooldownEndTimestamp != 0
    ensures |out| == 2 ==> out[1] == Outbound(Caller, ActionCooldown(a, f.cooldownEndTimestamp))
  {
    var resend := if ReasonText(f) == "cooldown" && f.Cooldown? && f.cooldownEndTimestamp != 0
                  then [Outbound(Caller, ActionCooldown(a, f.cooldownEndTimestamp))] else [];
    [Outbound(Caller, ActionFailed(a, ReasonText(f)))] + resend
  }

  /** `connection`: create and register the player, send it the bootstrap
      snapshot (with its stash) and the current event; then the final
      outcome if the game is over with a reason, and otherwise each of its
      cooldowns that is still running. */
  function OnConnection(sv: Server, id: PlayerId, now: int): (r: Reply)
    ensures r.server == sv.(game := AddPlayer(sv.game, CreatePlayer(id)))
    ensures id != "" ==> GetPlayer(r.server.game, id) == Some(CreatePlayer(id))
    ensures !r.aborted && |r.out| >= 2
    ensures r.out[0] == Outbound(Caller, GameStateUpdate(GetCurrentSnapshot(r.server.game).(personalStash := Some(0))))
    ensures r.out[1] == Outbound(Caller, EventUpdate(sv.game.activeEvent))
    ensures forall o :: o in r.out ==> o.to == Caller
    ensures !sv.game.gameIsRunning && sv.game.finalGameOutcome.reason.Some? ==>
      r.out[2..] == [Outbound(Caller, GameOver(sv.game.finalGameOutcome))]
    ensures !(!sv.game.gameIsRunning && sv.game.finalGameOutcome.reason.Some?) ==>
      forall o :: o in r.out[2..] ==> o.msg.ActionCooldown? && now < o.msg.cooldownEndTimestamp
    ensures !(!sv.game.gameIsRunning && sv.game.finalGameOutcome.reason.Some?) ==>
      r.out[2..] == (if id in r.server.game.players then ActiveCooldowns(r.server.game.players[id], now) else [])
    ensures Inv(sv) ==> Inv(r.server)
  {
    var p := CreatePlayer(id);
    var g := AddPlayer(sv.game, p);
    var boot := GetCurrentSnapshot(g).(personalStash := Some(p.personalStash), stashWinTarget := StashWinTarget);
    var head := [Outbound(Caller, GameStateUpdate(boot)), Outbound(Caller, EventUpdate(g.activeEvent))];
    var tail :=
      if !g.gameIsRunning && g.finalGameOutcome.reason.Some? then
        [Outbound(Caller, GameOver(g.finalGameOutcome))]
      else match GetPlayer(g, id)
        case None => []
        case Some(q) => ActiveCooldowns(q, now);
    Reply(sv.(game := g), head + tail, false)
  }

  /** A player connecting to a running game at a non-negative time receives
      exactly the bootstrap snapshot and the event status: its record is
      fresh, so it has no running cooldown to resend. */
  lemma ConnectToRunningGame(sv: Server, id: PlayerId, now: int)
    requires sv.game.gameIsRunning && now >= 0 && id != ""
    ensures |OnConnection(sv, id, now).out| == 2
  {
  }

  /** `generate`: apply the click; nothing is sent (the next tick's
      broadcast carries the change). The caller's id is never consulted. */
  function OnGenerate(sv: Server, id: PlayerId, now: int): (r: Reply)
    ensures r.out == [] && !r.aborted && r.server.eventTimerOn == sv.eventTimerOn
    ensures r.server.game.players == sv.game.players
    ensures OnlyEnergyChanged(sv.game, r.server.game)
    ensures r.server == sv.(game := ApplyGenerate(sv.game, now))
    ensures !sv.game.gameIsRunning ==> r.server == sv
    ensures sv.game.gameIsRunning && sv.game.energyLevel < MaxEnergy ==>
      sv.game.energyLevel < r.server.game.energyLevel <= MaxEnergy
    ensures Inv(sv) ==> Inv(r.server)
  {
    Reply(sv.(game := ApplyGenerate(sv.game, now)), [], false)
  }

  /** Generate does the same thing whoever sends it, registered or not. */
  lemma GenerateIgnoresCaller(sv: Server, a: PlayerId, b: PlayerId, now: int)
    ensures OnGenerate(sv, a, now) == OnGenerate(sv, b, now)
  {
  }

  /** `stabilize`: the caller is sent its cooldown end whenever the result
      carries a non-zero one; the effect is then broadcast when the result
      also carries a non-zero effect end. */
  function OnStabilize(sv: Server, id: PlayerId, now: int): (r: Reply)
    ensures r.server == sv.(game := ApplyStabilize(sv.game, id, now).state)
    ensures !r.aborted && |r.out| <= 2
    ensures (exists o :: o in r.out && o.msg.ActionCooldown?) <==>
      match ApplyStabilize(sv.game, id, now).result
      case StabilizeIgnored => false
      case StabilizeBlocked(cd) => cd != 0
      case StabilizeApplied(cd, _) => cd != 0
    ensures (exists o :: o in r.out && o.msg.StabilizeEffectUpdate?) <==>
      match ApplyStabilize(sv.game, id, now).result
      case StabilizeApplied(cd, eff) => cd != 0 && eff != 0
      case _ => false
    ensures now >= 0 && sv.game.gameIsRunning && id in sv.game.players &&
            !sv.game.players[id].OnCooldown(Stabilize, now) ==>
      r.out == [Outbound(Caller, ActionCooldown(Stabilize, now + StabilizeCooldownMs)),
                Outbound(Everyone, StabilizeEffectUpdate(true, now + StabilizeDurationMs))]
    ensures now >= 0 && sv.game.gameIsRunning && id in sv.game.players &&
            sv.game.players[id].OnCooldown(Stabilize, now) ==>
      r.out == [Outbound(Caller, ActionCooldown(Stabilize, sv.game.players[id].stabilizeCooldownEnd))]
    ensures !sv.game.gameIsRunning || id !in sv.game.players ==> r == Reply(sv, [], false)
    ensures Inv(sv) ==> Inv(r.server)
  {
    var res := ApplyStabilize(sv.game, id, now);
    var out :=
      match res.result
      case StabilizeIgnored => []
      case StabilizeBlocked(cd) =>
        if cd != 0 then [Outbound(Caller, ActionCooldown(Stabilize, cd))] else []
      case StabilizeApplied(cd, eff) =>
        if cd != 0 then
          [Outbound(Caller, ActionCooldown(Stabilize, cd))]
          + (if eff != 0 then [Outbound(Everyone, StabilizeEffectUpdate(true, eff))] else [])
        else [];
    Reply(sv.(game := res.state), out, false)
  }

  /** `stealGrid`, as the code is written. A refusal reports to the caller
      only. A successful steal sends the caller its cooldown and stash; if
      the stash reached the target, the individual win is committed through
      `SetGameOver`, after which the handler calls `stopEventTimer` on the
      game-logic module, which does not export it: the call throws, so the
      game-over broadcast and the event clearing that follow never happen.
      Without a win, the new state is broadcast. */
  function OnStealGrid(sv: Server, id: PlayerId, now: int): (r: Reply)
    ensures var res := ApplyStealGrid(sv.game, id, now);
      && (res.result.StealFailed? ==>
            r == Reply(sv, FailureReport(StealGrid, res.result.reason), false))
      && (res.result.StealSucceeded? ==>
            && |r.out| >= 2
            && r.out[..2] == [Outbound(Caller, ActionCooldown(StealGrid, res.result.cooldownEndTimestamp)),
                              Outbound(Caller, PersonalStashUpdate(res.result.newStashAmount))]
            && (!res.result.didWin ==>
                  r == Reply(sv.(game := res.state), r.out[..2] + [Broadcast(res.state)], false))
            && (res.result.didWin ==>
                  && r.server == sv.(game := SetGameOver(res.state, IndividualWin, Some(id)).state)
                  && r.aborted
                  && |r.out| == 2))
    ensures Inv(sv) ==> Inv(r.server)
  {
    var res := ApplyStealGrid(sv.game, id, now);
    match res.result
    case StealFailed(reason) => Reply(sv, FailureReport(StealGrid, reason), false)
    case StealSucceeded(cd, stash, didWin) =>
      var acks := [Outbound(Caller, ActionCooldown(StealGrid, cd)),
                   Outbound(Caller, PersonalStashUpdate(stash))];
      if didWin then
        var over := SetGameOver(res.state, IndividualWin, Some(id));
        // `gameLogic.stopEventTimer` is undefined here: calling it throws.
        Reply(sv.(game := over.state), acks, over.result)
      else
        Reply(sv.(game := res.state), acks + [Broadcast(res.state)], false)
  }

  /** As written, a winning steal ends the game but nobody is told: no
      `GameOver` message is sent, the handler aborts, and any active event
      and the event check are left in place. */
  lemma IndividualWinAbortsBeforeBroadcast(sv: Server, id: PlayerId, now: int)
    requires ApplyStealGrid(sv.game, id, now).result.StealSucceeded?
    requires ApplyStealGrid(sv.game, id, now).result.didWin
    ensures OnStealGrid(sv, id, now).aborted
    ensures !OnStealGrid(sv, id, now).server.game.gameIsRunning
    ensures OnStealGrid(sv, id, now).server.game.finalGameOutcome == Outcome(Some(IndividualWin), Some(id))
    ensures forall o :: o in OnStealGrid(sv, id, now).out ==> !o.msg.GameOver?
    ensures OnStealGrid(sv, id, now).server.game.activeEvent == sv.game.activeEvent
    ensures OnStealGrid(sv, id, now).server.eventTimerOn == sv.eventTimerOn
  {
  }

  /** A concrete instance: one player holding 24 stash points steals at
      time 0 from a running grid at level 50 during a surge. */
  lemma IndividualWinWitness()
    ensures var p := Player("p", 0, 0, 24, 0);
      var g := State(50.0, map["p" := p], 0, 0, 0, true, NoOutcome, 0, ActiveEvent(Some(Surge), 10000));
      var r := OnStealGrid(Server(g, true), "p", 0);
      && r.aborted
      && r.out == [Outbound(Caller, ActionCooldown(StealGrid, 10000)), Outbound(Caller, PersonalStashUpdate(26))]
      && r.server.game.activeEvent == ActiveEvent(Some(Surge), 10000)
      && r.server.game.finalGameOutcome == Outcome(Some(IndividualWin), Some("p"))
  {
  }

  /** `stealGrid` as evidently intended: after committing the individual
      win, stop the event check, clear any active event and broadcast the
      final outcome. */
  function OnStealGridIntended(sv: Server, id: PlayerId, now: int): (r: Reply)
    ensures !r.aborted
    ensures var res := ApplyStealGrid(sv.game, id, now);
      res.result.StealFailed? || !res.result.didWin ==> r == OnStealGrid(sv, id, now)
    ensures var res := ApplyStealGrid(sv.game, id, now);
      var w := OnStealGrid(sv, id, now);
      res.result.StealSucceeded? && res.result.didWin ==>
        && r.server == Server(ClearActiveEvent(w.server.game).state, false)
        && r.out == w.out + [Outbound(Everyone, GameOver(w.server.game.finalGameOutcome))]
    ensures Inv(sv) ==> Inv(r.server)
  {
    var res := ApplyStealGrid(sv.game, id, now);
    match res.result
    case StealFailed(reason) => Reply(sv, FailureReport(StealGrid, reason), false)
    case StealSucceeded(cd, stash, didWin) =>
      var acks := [Outbound(Caller, ActionCooldown(StealGrid, cd)),
                   Outbound(Caller, PersonalStashUpdate(stash))];
      if didWin then
        var over := SetGameOver(res.state, IndividualWin, Some(id));
        if over.result then
          var cleared := ClearActiveEvent(over.state).state;
          Reply(Server(cleared, false), acks + [Outbound(Everyone, GameOver(cleared.finalGameOutcome))], false)
        else Reply(sv.(game := over.state), acks, false)
      else
        Reply(sv.(game := res.state), acks + [Broadcast(res.state)], false)
  }

  /** With the intended handler a winning steal tells everyone who won,
      leaves no event active and stops the event check. */
  lemma IntendedIndividualWinBroadcasts(sv: Server, id: PlayerId, now: int)
    requires Inv(sv)
    requires ApplyStealGrid(sv.game, id, now).result.StealSucceeded?
    requires ApplyStealGrid(sv.game, id, now).result.didWin
    ensures var r := OnStealGridIntended(sv, id, now);
      && !r.server.game.gameIsRunning
      && r.out[|r.out| - 1] == Outbound(Everyone, GameOver(Outcome(Some(IndividualWin), Some(id))))
      && r.server.game.activeEvent == NoEvent
      && !r.server.eventTimerOn
  {
  }

  /** `emergencyAdjust`: on success the caller gets its cooldown end, then
      a wrong-zone notice if the adjustment was misuse, then the new state is
      broadcast; a refusal reports to the caller only. */
  function OnEmergencyAdjust(sv: Server, id: PlayerId, now: int): (r: Reply)
    ensures r.server == sv.(game := ApplyEmergencyAdjust(sv.game, id, now).state) && !r.aborted
    ensures var res := ApplyEmergencyAdjust(sv.game, id, now);
      && (res.result.EmergencyFailed? ==> r.out == FailureReport(EmergencyAdjust, res.result.reason))
      && (res.result.EmergencyApplied? ==>
            && |r.out| >= 2
            && r.out[0] == Outbound(Caller, ActionCooldown(EmergencyAdjust, now + EmergencyAdjustCooldownMs))
            && r.out[|r.out| - 1] == Broadcast(res.state)
            && |r.out| == (if res.result.misused then 3 else 2)
            && (|r.out| == 3 ==> r.out[1] == Outbound(Caller, ActionFailed(EmergencyAdjust, WrongZoneText))))
    ensures Inv(sv) ==> Inv(r.server)
  {
    var res := ApplyEmergencyAdjust(sv.game, id, now);
    match res.result
    case EmergencyFailed(reason) => Reply(sv, FailureReport(EmergencyAdjust, reason), false)
    case EmergencyApplied(cd, misused) =>
      var notice := if misused then [Outbound(Caller, ActionFailed(EmergencyAdjust, WrongZoneText))] else [];
      Reply(sv.(game := res.state),
            [Outbound(Caller, ActionCooldown(EmergencyAdjust, cd))] + notice + [Broadcast(res.state)], false)
  }

  /** The messages of an honoured reset, in order: the reset signal, a fresh
      snapshot, the three zeroed cooldowns in the resend order and a zeroed
      stash, all to everyone. */
  function ResetAnnouncements(g: State): (out: seq<Outbound>)
    ensures |out| == 6 && forall o :: o in out ==> o.to == Everyone
    ensures out[0].msg == GameReset && out[1] == Broadcast(g)
    ensures forall a: Action :: out[2 + ActionOrder(a)] == Outbound(Everyone, ActionCooldown(a, 0))
    ensures out[5].msg == PersonalStashUpdate(0)
  {
    [Outbound(Everyone, GameReset),
     Broadcast(g),
     Outbound(Everyone, ActionCooldown(Stabilize, 0)),
     Outbound(Everyone, ActionCooldown(StealGrid, 0)),
     Outbound(Everyone, ActionCooldown(EmergencyAdjust, 0)),
     Outbound(Everyone, PersonalStashUpdate(0))]
  }

  /** `requestReset`: ignored silently while the game runs. Once it is over,
      the state is reset (every player kept, zeroed), the event check is
      scheduled again, and the reset is announced to everyone. */
  function OnRequestReset(sv: Server): (r: Reply)
    ensures sv.game.gameIsRunning ==> r == Reply(sv, [], false)
    ensures !sv.game.gameIsRunning ==>
      && FreshGrid(r.server.game)
      && r.server.eventTimerOn
      && r.server.game.players.Keys == sv.game.players.Keys
      && (WellKeyed(sv.game.players) ==>
            forall id :: id in r.server.game.players ==> r.server.game.players[id] == CreatePlayer(id))
      && r.out == ResetAnnouncements(r.server.game)
      && r.out[1].msg.snapshot == Snapshot(InitialEnergy, |sv.game.players.Keys|, CoopWinDurationSeconds, 0,
                                           true, None, None, None, 0, StashWinTarget, None)
    ensures !r.aborted
    ensures Inv(sv) ==> Inv(r.server)
  {
    if !sv.game.gameIsRunning then
      var g := Reset(sv.game);
      SnapshotAfterReset(sv.game);
      assert WellKeyed(sv.game.players) ==> forall k :: k in g.players ==> g.players[k] == CreatePlayer(k) by {
        if WellKeyed(sv.game.players) { ResetPlayersAreFresh(sv.game); }
      }
      Reply(Server(g, true), ResetAnnouncements(g), false)
    else Reply(sv, [], false)
  }

  /** `disconnect`: remove that player only and broadcast the new state. */
  function OnDisconnect(sv: Server, id: PlayerId): (r: Reply)
    ensures r.server == sv.(game := RemovePlayer(sv.game, id))
    ensures r.server.game.players.Keys == sv.game.players.Keys - {id}
    ensures SameGrid(r.server.game, sv.game)
    ensures r.out == [Broadcast(r.server.game)] && !r.aborted
    ensures Inv(sv) ==> Inv(r.server)
  {
    var g := RemovePlayer(sv.game, id);
    Reply(sv.(game := g), [Broadcast(g)], false)
  }

  /** Dispatch one inbound message from connection `id` at time `now`. */
  function Handle(sv: Server, id: PlayerId, m: Inbound, now: int): (r: Reply)
    ensures Inv(sv) ==> Inv(r.server)
    ensures r.aborted ==> m == StealGridRequest && !r.server.game.gameIsRunning
    ensures m != RequestReset && !sv.game.gameIsRunning ==>
      SameGrid(r.server.game, sv.game) && r.server.eventTimerOn == sv.eventTimerOn
  {
    match m
    case Connection => OnConnection(sv, id, now)
    case Generate => OnGenerate(sv, id, now)
    case StabilizeRequest => OnStabilize(sv, id, now)
    case StealGridRequest => OnStealGrid(sv, id, now)
    case EmergencyAdjustRequest => OnEmergencyAdjust(sv, id, now)
    case RequestReset => OnRequestReset(sv)
    case Disconnect => OnDisconnect(sv, id)
  }
}

=== FILE: lifecycle.dfy ===
/** The server over time: the boot state, the two timer callbacks (game-loop
    tick with its broadcasts, periodic event check) and inbound messages as
    one kind of step, and the properties every run keeps. */
module Lifecycle {
  import opened Base
  import opened Config
  import opened Players
  import opened GameState
  import opened Events
  import opened Tick
  import opened Handler

  /** The server right after start-up: the freshly loaded state, the game
      loop running, and the event check not yet scheduled (it is first
      scheduled by an honoured reset). */
  function Boot(): (sv: Server)
    ensures Inv(sv)
    ensures FreshGrid(sv.game) && sv.game.players == map[]
    ensures !sv.eventTimerOn
  {
    Server(Initial(), false)
  }

  /** One game-loop firing: run `updateGame`, then broadcast the outcome if
      the game just ended (and unschedule the event check), or else, if
      anything changed, the new state followed by the stabilize-ended and
      event-ended notices that apply. */
  function LoopTick(sv: Server, now: int): (r: Reply)
    ensures var t := UpdateGame(sv.game, now);
      && r.server.game == t.state && !r.aborted
      && (t.result.NotUpdated? ==> r == Reply(sv, [], false))
      && (t.result.GameOverTick? ==>
            && r.out == [Outbound(Everyone, GameOver(Outcome(Some(t.result.reason), None)))]
            && !r.server.eventTimerOn)
      && (t.result.Routine? ==>
            && r.server.eventTimerOn == sv.eventTimerOn
            && (r.out == [] <==> !t.result.updated)
            && (t.result.updated ==>
                  r.out == [Broadcast(t.state)]
                           + (if t.result.stabilizeEnded then [Outbound(Everyone, StabilizeEffectUpdate(false, 0))] else [])
                           + (if t.result.eventEnded then [Outbound(Everyone, EventUpdate(NoEvent))] else [])))
    ensures Inv(sv) ==> Inv(r.server)
  {
    var t := UpdateGame(sv.game, now);
    match t.result
    case NotUpdated => Reply(sv, [], false)
    case GameOverTick(reason) =>
      Reply(Server(t.state, false), [Outbound(Everyone, GameOver(Outcome(Some(reason), None)))], false)
    case Routine(updated, stabilizeEnded, eventEnded) =>
      var out :=
        if updated then
          [Broadcast(t.state)]
          + (if stabilizeEnded then [Outbound(Everyone, StabilizeEffectUpdate(false, 0))] else [])
          + (if eventEnded then [Outbound(Everyone, EventUpdate(NoEvent))] else [])
        else [];
      Reply(sv.(game := t.state), out, false)
  }

  /** One firing of the periodic event check; nothing happens while it is
      unscheduled. A started event is announced to everyone. */
  function EventCheck(sv: Server, now: int, chanceDraw: Draw, kindDraw: Draw): (r: Reply)
    ensures !sv.eventTimerOn ==> r == Reply(sv, [], false)
    ensures sv.eventTimerOn ==>
      var t := TriggerRandomEvent(sv.game, now, chanceDraw, kindDraw);
      && r.server == sv.(game := t.state)
      && (t.result.None? ==> r.out == [])
      && (t.result.Some? ==> r.out == [Outbound(Everyone, EventUpdate(t.result.value))])
    ensures !r.aborted
    ensures Inv(sv) ==> Inv(r.server)
  {
    if !sv.eventTimerOn then Reply(sv, [], false)
    else
      var t := TriggerRandomEvent(sv.game, now, chanceDraw, kindDraw);
      match t.result
      case None => Reply(sv.(game := t.state), [], false)
      case Some(ev) => Reply(sv.(game := t.state), [Outbound(Everyone, EventUpdate(ev))], false)
  }

  /** Anything that can happen to the server next. */
  datatype Step =
    | LoopFires(now: int)
    | EventCheckFires(now: int, chanceDraw: Draw, kindDraw: Draw)
    | Message(id: PlayerId, msg: Inbound, now: int)

  /** The step asks for a reset. */
  predicate IsResetRequest(st: Step) {
    st.Message? && st.msg == RequestReset
  }

  /** Apply one step. */
  function Apply(sv: Server, st: Step): (r: Reply)
    ensures Inv(sv) ==> Inv(r.server)
    ensures r.aborted ==> st.Message? && st.msg == StealGridRequest
    ensures !st.Message? ==> r.server.game.players == sv.game.players
    ensures st.EventCheckFires? ==> r.server.eventTimerOn == sv.eventTimerOn
    ensures !IsResetRequest(st) && !sv.game.gameIsRunning ==>
      SameGrid(r.server.game, sv.game) && r.server.eventTimerOn == sv.eventTimerOn
  {
    match st
    case LoopFires(now) => LoopTick(sv, now)
    case EventCheckFires(now, c, k) => EventCheck(sv, now, c, k)
    case Message(id, m, now) => Handle(sv, id, m, now)
  }

  /** The server after a sequence of steps. */
  function Run(sv: Server, steps: seq<Step>): Server
    decreases |steps|
  {
    if |steps| == 0 then sv else Run(Apply(sv, steps[0]).server, steps[1..])
  }

  /** Every run keeps the server invariant. */
  lemma {:induction false} RunPreservesInv(sv: Server, steps: seq<Step>)
    requires Inv(sv)
    ensures Inv(Run(sv, steps))
    decreases |steps|
  {
    if |steps| > 0 {
      RunPreservesInv(Apply(sv, steps[0]).server, steps[1..]);
    }
  }

  /** From start-up, whatever players do and however the timers fire, the
      energy level stays within [MinEnergy, MaxEnergy], each player is
      filed under its own id, and the game has an outcome exactly when it
      is over. */
  lemma EnergyAlwaysInRange(steps: seq<Step>)
    ensures InEnergyRange(Run(Boot(), steps).game.energyLevel)
    ensures WellKeyed(Run(Boot(), steps).game.players)
    ensures Run(Boot(), steps).game.gameIsRunning <==> Run(Boot(), steps).game.finalGameOutcome.reason.None?
  {
    RunPreservesInv(Boot(), steps);
  }

  /** One step that is not a reset request leaves a finished game finished,
      with its outcome and every grid field unchanged. */
  lemma OverStaysOverStep(sv: Server, st: Step)
    requires !sv.game.gameIsRunning && !IsResetRequest(st)
    ensures SameGrid(Apply(sv, st).server.game, sv.game)
    ensures Apply(sv, st).server.eventTimerOn == sv.eventTimerOn
  {
  }

  /** Once the game is over, no sequence of ticks, event checks or player
      actions can restart it or change its outcome; only a reset request
      can. So a tick-driven ending cannot overwrite an individual win, nor
      the other way round. */
  lemma {:induction false} OutcomeFrozenUntilReset(sv: Server, steps: seq<Step>)
    requires !sv.game.gameIsRunning
    requires forall i :: 0 <= i < |steps| ==> !IsResetRequest(steps[i])
    ensures !Run(sv, steps).game.gameIsRunning
    ensures Run(sv, steps).game.finalGameOutcome == sv.game.finalGameOutcome
    ensures SameGrid(Run(sv, steps).game, sv.game)
    decreases |steps|
  {
    if |steps| > 0 {
      OverStaysOverStep(sv, steps[0]);
      OutcomeFrozenUntilReset(Apply(sv, steps[0]).server, steps[1..]);
    }
  }

  /** One step that is not a reset request never lowers the cumulative
      stable time. */
  lemma StableTimeMonotoneStep(sv: Server, st: Step)
    requires !IsResetRequest(st)
    ensures Apply(sv, st).server.game.cumulativeStableTimeMs >= sv.game.cumulativeStableTimeMs
  {
  }

  /** Between resets the cumulative stable time never decreases. */
  lemma {:induction false} StableTimeMonotone(sv: Server, steps: seq<Step>)
    requires forall i :: 0 <= i < |steps| ==> !IsResetRequest(steps[i])
    ensures Run(sv, steps).game.cumulativeStableTimeMs >= sv.game.cumulativeStableTimeMs
    decreases |steps|
  {
    if |steps| > 0 {
      StableTimeMonotoneStep(sv, steps[0]);
      StableTimeMonotone(Apply(sv, steps[0]).server, steps[1..]);
    }
  }

  /** One step other than a reset request never schedules the event check,
      and while it is unscheduled no event becomes active. */
  lemma NoEventStep(sv: Server, st: Step)
    requires Inv(sv) && !sv.eventTimerOn && !IsResetRequest(st)
    ensures !Apply(sv, st).server.eventTimerOn
    ensures Apply(sv, st).server.game.activeEvent == NoEvent
  {
  }

  /** The event check is scheduled only by an honoured reset, so from
      start-up no random event ever starts until a reset has been requested. */
  lemma {:induction false} NoEventsBeforeFirstReset(sv: Server, steps: seq<Step>)
    requires Inv(sv) && !sv.eventTimerOn
    requires forall i :: 0 <= i < |steps| ==> !IsResetRequest(steps[i])
    ensures !Run(sv, steps).eventTimerOn
    ensures Run(sv, steps).game.activeEvent == NoEvent
    decreases |steps|
  {
    if |steps| > 0 {
      NoEventStep(sv, steps[0]);
      NoEventsBeforeFirstReset(Apply(sv, steps[0]).server, steps[1..]);
    }
  }

  /** From start-up, until somebody requests a reset, no event is ever
      active, whatever the random draws are. */
  lemma BootHasNoEvents(steps: seq<Step>)
    requires forall i :: 0 <= i < |steps| ==> !IsResetRequest(steps[i])
    ensures Run(Boot(), steps).game.activeEvent == NoEvent
  {
    NoEventsBeforeFirstReset(Boot(), steps);
  }

  /** A step that neither resets the game nor connects or disconnects `id`
      keeps `id` registered and never lowers its stash. */
  lemma StashMonotoneStep(sv: Server, st: Step, id: PlayerId)
    requires id in sv.game.players && !IsResetRequest(st)
    requires st.Message? && st.id == id ==> st.msg != Connection && st.msg != Disconnect
    ensures id in Apply(sv, st).server.game.players
    ensures Apply(sv, st).server.game.players[id].personalStash >= sv.game.players[id].personalStash
  {
  }

  /** Between resets, and while its connection stays open, a player's stash
      never decreases: only a successful steal changes it, by adding. */
  lemma {:induction false} StashMonotone(sv: Server, steps: seq<Step>, id: PlayerId)
    requires id in sv.game.players
    requires forall i :: 0 <= i < |steps| ==> !IsResetRequest(steps[i])
    requires forall i :: 0 <= i < |steps| && steps[i].Message? && steps[i].id == id ==>
      steps[i].msg != Connection && steps[i].msg != Disconnect
    ensures id in Run(sv, steps).game.players
    ensures Run(sv, steps).game.players[id].personalStash >= sv.game.players[id].personalStash
    decreases |steps|
  {
    if |steps| > 0 {
      StashMonotoneStep(sv, steps[0], id);
      StashMonotone(Apply(sv, steps[0]).server, steps[1..], id);
    }
  }
}

=== FILE: player.dfy ===
/** The per-connection player record: three cooldown-end timestamps and the
    private stash. */
module Players {

  /** A connection identity (the transport's socket id). */
  type PlayerId = string

  /** The three cooldown-gated actions. */
  datatype Action = Stabilize | StealGrid | EmergencyAdjust

  /** One player's record. A cooldown end of 0 means never used. */
  datatype Player = Player(
    id: PlayerId,
    stabilizeCooldownEnd: int,
    stealGridCooldownEnd: int,
    personalStash: nat,
    emergencyAdjustCooldownEnd: int)
  {
    /** The cooldown-end timestamp this record keeps for action `a`. */
    function CooldownEnd(a: Action): int {
      match a
      case Stabilize => stabilizeCooldownEnd
      case StealGrid => stealGridCooldownEnd
      case EmergencyAdjust => emergencyAdjustCooldownEnd
    }

    /** A cooldown is active at `now` iff `now` is strictly before its end. */
    predicate OnCooldown(a: Action, now: int) {
      now < CooldownEnd(a)
    }
  }

  /** The record made for a newly connected player. */
  function CreatePlayer(id: PlayerId): (p: Player)
    ensures p.id == id
    ensures p.personalStash == 0
    ensures forall a: Action :: p.CooldownEnd(a) == 0
  {
    Player(id, 0, 0, 0, 0)
  }

  /** A freshly created player can use every action at any non-negative time. */
  lemma FreshPlayerOffCooldown(id: PlayerId, a: Action, now: int)
    requires now >= 0
    ensures !CreatePlayer(id).OnCooldown(a, now)
  {
  }

  /** The per-player part of a game reset: cooldowns and stash back to 0. */
  function ResetStats(p: Player): (r: Player)
    ensures r == CreatePlayer(p.id)
  {
    p.(stabilizeCooldownEnd := 0, stealGridCooldownEnd := 0,
       personalStash := 0, emergencyAdjustCooldownEnd := 0)
  }
}

=== FILE: tick.dfy ===
/** One game-loop tick (`updateGame`): decay multiplier, expiry of the
    stabilize effect and of the active event, clamped decay, the three zone
    timers, and the terminal decision. */
module Tick {
  import opened Base
  import opened Config
  import opened GameState
  import opened Events
  import opened Actions

  /** What `updateGame` returns: `NotUpdated` when the game is already over,
      `GameOverTick` when this tick ended it (the winner is always null), and
      otherwise whether anything a client sees changed and which effects ended. */
  datatype TickResult =
    | NotUpdated
    | GameOverTick(reason: Reason)
    | Routine(updated: bool, stabilizeEnded: bool, eventEnded: bool)

  /** Energy lost per second at `now`: the stabilize factor and the surge
      factor are applied independently, so together they compound. */
  function DecayRate(s: State, now: int): (rate: real)
    ensures StabilizeActive(s, now) && EventActive(s, Surge, now) ==> rate == 0.25
    ensures StabilizeActive(s, now) && !EventActive(s, Surge, now) ==> rate == 0.1
    ensures !StabilizeActive(s, now) && EventActive(s, Surge, now) ==> rate == 1.25
    ensures !StabilizeActive(s, now) && !EventActive(s, Surge, now) ==> rate == BaseEnergyDecayRate
  {
    var base := BaseEnergyDecayRate;
    var withStabilize := if StabilizeActive(s, now) then base * StabilizeDecayMultiplier else base;
    if EventActive(s, Surge, now) then withStabilize * EventSurgeDecayMultiplier else withStabilize
  }

  /** Energy lost in one tick at a given per-second rate. */
  function DecayAmount(rate: real): (amount: real)
    requires rate > 0.0
    ensures amount == rate / 2.0
    ensures amount > 0.0
  {
    rate * (GameLoopIntervalMs as real / 1000.0)
  }

  /** The level after decaying by `amount`, clamped below and above. */
  function Decay(e: real, amount: real): (e': real)
    requires amount > 0.0
    ensures InEnergyRange(e')
    ensures InEnergyRange(e - amount) ==> e' == e - amount
    ensures e - amount < MinEnergy ==> e' == MinEnergy
    ensures e - amount > MaxEnergy ==> e' == MaxEnergy
  {
    Min(MaxEnergy, Max(MinEnergy, e - amount))
  }

  /** The terminal reason decided from the level and the updated timers.
      The source assigns the reason in three places and the last assignment
      wins; because the bands are disjoint, at most one assignment happens. */
  function TerminalReason(e: real, stableMs: nat, lowMs: nat, highMs: nat): (r: Option<Reason>)
    ensures r == Some(CoopWin) <==> InSafeZone(e) && stableMs >= CoopWinTargetMs
    ensures r == Some(Shutdown) <==> InDangerLow(e) && lowMs >= DangerTimeLimitMs
    ensures r == Some(Meltdown) <==> InDangerHigh(e) && highMs >= DangerTimeLimitMs
    ensures r != Some(IndividualWin)
  {
    ZonesDisjoint(e);
    var afterCoop := if InSafeZone(e) && stableMs >= CoopWinTargetMs then Some(CoopWin) else None;
    var afterLow := if InDangerLow(e) && lowMs >= DangerTimeLimitMs then Some(Shutdown) else afterCoop;
    if InDangerHigh(e) && highMs >= DangerTimeLimitMs then Some(Meltdown) else afterLow
  }

  /** The state after the expiry and decay phases of a tick, with the two
      "ended" flags and whether the energy moved. */
  datatype Phase1 = Phase1(state: State, stabilizeEnded: bool, eventEnded: bool, energyMoved: bool)

  /** Phase 1 of `updateGame`: pick the decay rate from the state as it was
      at the start of the tick, expire the stabilize effect once its end has
      passed, clear an event whose end has passed, then decay. */
  function ExpireAndDecay(s: State, now: int): (p: Phase1)
    ensures p.state.players == s.players
    ensures p.state.gameIsRunning == s.gameIsRunning && p.state.finalGameOutcome == s.finalGameOutcome
    ensures p.state.cumulativeStableTimeMs == s.cumulativeStableTimeMs
    ensures p.state.continuousTimeInDangerLowMs == s.continuousTimeInDangerLowMs
    ensures p.state.continuousTimeInDangerHighMs == s.continuousTimeInDangerHighMs
    ensures p.stabilizeEnded <==> !StabilizeActive(s, now) && s.stabilizeEffectEndTime > 0
    ensures p.state.stabilizeEffectEndTime == (if p.stabilizeEnded then 0 else s.stabilizeEffectEndTime)
    ensures p.eventEnded <==> s.activeEvent.kind.Some? && now >= s.activeEvent.endTime
    ensures p.eventEnded ==> p.state.activeEvent.kind.None?
    ensures !p.eventEnded ==> p.state.activeEvent == s.activeEvent
    ensures p.state.energyLevel == Decay(s.energyLevel, DecayRate(s, now) / 2.0)
    ensures p.energyMoved <==> p.state.energyLevel != s.energyLevel
    ensures Valid(s) ==> Valid(p.state)
  {
    var rate := DecayRate(s, now);
    var stabilizeEnded := !StabilizeActive(s, now) && s.stabilizeEffectEndTime > 0;
    var s1 := if stabilizeEnded then s.(stabilizeEffectEndTime := 0) else s;
    var expiring := s1.activeEvent.kind.Some? && now >= s1.activeEvent.endTime;
    var cleared := if expiring then ClearActiveEvent(s1) else Effect(s1, false);
    var s2 := cleared.state;
    var e := Decay(s2.energyLevel, DecayAmount(rate));
    Phase1(s2.(energyLevel := e), stabilizeEnded, cleared.result, e != s2.energyLevel)
  }

  /** The zone timers after phase 2, and whether a nonzero danger timer was
      dropped. */
  datatype Phase2 = Phase2(state: State, dangerTimerReset: bool)

  /** Phase 2 of `updateGame`: the stable timer accumulates while the level
      is in the safe band; each danger timer accumulates while the level is
      in its band and drops to 0 otherwise. */
  function UpdateZoneTimers(s: State): (r: Phase2)
    ensures r.state.cumulativeStableTimeMs ==
      s.cumulativeStableTimeMs + (if InSafeZone(s.energyLevel) then GameLoopIntervalMs else 0)
    ensures r.state.continuousTimeInDangerLowMs ==
      (if InDangerLow(s.energyLevel) then s.continuousTimeInDangerLowMs + GameLoopIntervalMs else 0)
    ensures r.state.continuousTimeInDangerHighMs ==
      (if InDangerHigh(s.energyLevel) then s.continuousTimeInDangerHighMs + GameLoopIntervalMs else 0)
    ensures r.dangerTimerReset <==>
      (!InDangerLow(s.energyLevel) && s.continuousTimeInDangerLowMs > 0) ||
      (!InDangerHigh(s.energyLevel) && s.continuousTimeInDangerHighMs > 0)
    ensures r.state.(cumulativeStableTimeMs := s.cumulativeStableTimeMs,
                 continuousTimeInDangerLowMs := s.continuousTimeInDangerLowMs,
                 continuousTimeInDangerHighMs := s.continuousTimeInDangerHighMs) == s
  {
    var e := s.energyLevel;
    var stable := if InSafeZone(e) then s.cumulativeStableTimeMs + GameLoopIntervalMs
                  else s.cumulativeStableTimeMs;
    var lowReset := !InDangerLow(e) && s.continuousTimeInDangerLowMs > 0;
    var low := if InDangerLow(e) then s.continuousTimeInDangerLowMs + GameLoopIntervalMs else 0;
    var highReset := !InDangerHigh(e) && s.continuousTimeInDangerHighMs > 0;
    var high := if InDangerHigh(e) then s.continuousTimeInDangerHighMs + GameLoopIntervalMs else 0;
    Phase2(s.(cumulativeStableTimeMs := stable, continuousTimeInDangerLowMs := low,
              continuousTimeInDangerHighMs := high), lowReset || highReset)
  }

  /** `updateGame`: a no-op on a finished game; otherwise one tick. A
      terminal reason is committed through `SetGameOver` (winner null) and
      any active event is cleared. */
  function UpdateGame(s: State, now: int): (r: Effect<TickResult>)
    ensures !s.gameIsRunning ==> r == Effect(s, NotUpdated)
    ensures s.gameIsRunning ==>
      !r.result.NotUpdated? &&
      var p := ExpireAndDecay(s, now);
      var z := UpdateZoneTimers(p.state).state;
      var reason := TerminalReason(z.energyLevel, z.cumulativeStableTimeMs,
                                   z.continuousTimeInDangerLowMs, z.continuousTimeInDangerHighMs);
      && InEnergyRange(r.state.energyLevel)
      && r.state.players == s.players
      && r.state.energyLevel == p.state.energyLevel
      && r.state.cumulativeStableTimeMs >= s.cumulativeStableTimeMs
      && r.state.stabilizeEffectEndTime == p.state.stabilizeEffectEndTime
      && (r.result.GameOverTick? <==> reason.Some?)
      && (r.result.GameOverTick? ==>
            && r.result.reason == reason.value
            && !r.state.gameIsRunning
            && r.state.finalGameOutcome == Outcome(reason, None)
            && r.state.(gameIsRunning := z.gameIsRunning, finalGameOutcome := z.finalGameOutcome,
                        activeEvent := z.activeEvent) == z
            && (z.activeEvent.kind.Some? ==> r.state.activeEvent == NoEvent)
            && (z.activeEvent.kind.None? ==> r.state.activeEvent == z.activeEvent))
      && (r.result.Routine? ==>
            && r.state == z
            && r.result.stabilizeEnded == p.stabilizeEnded
            && r.result.eventEnded == p.eventEnded
            && (r.result.updated <==>
                  p.stabilizeEnded || p.eventEnded || p.energyMoved || UpdateZoneTimers(p.state).dangerTimerReset))
    ensures Valid(s) ==> Valid(r.state)
  {
    if !s.gameIsRunning then Effect(s, NotUpdated)
    else
      var p := ExpireAndDecay(s, now);
      var zones := UpdateZoneTimers(p.state);
      var z := zones.state;
      var reason := TerminalReason(z.energyLevel, z.cumulativeStableTimeMs,
                                   z.continuousTimeInDangerLowMs, z.continuousTimeInDangerHighMs);
      match reason
      case Some(why) =>
        var over := SetGameOver(z, why, None).state;
        Effect(ClearActiveEvent(over).state, GameOverTick(why))
      case None =>
        Effect(z, Routine(p.stabilizeEnded || p.eventEnded || p.energyMoved || zones.dangerTimerReset,
                          p.stabilizeEnded, p.eventEnded))
  }

  /** With both the stabilize effect and a surge in force, a tick removes
      0.125 points: the two multipliers compound rather than the stabilize
      effect overriding the surge. */
  lemma DecayMultipliersCompound(s: State, now: int)
    requires s.gameIsRunning && 1.0 <= s.energyLevel <= MaxEnergy
    requires StabilizeActive(s, now) && EventActive(s, Surge, now)
    ensures UpdateGame(s, now).state.energyLevel == s.energyLevel - 0.125
  {
  }

  /** A tick with no effect or event in force, starting in the safe band
      well away from its edges, loses exactly a quarter point, adds one
      interval of stable time and keeps both danger timers at 0. */
  lemma QuietTickInSafeBand(s: State, now: int)
    requires s.gameIsRunning && SafeZoneMin + 0.25 <= s.energyLevel <= SafeZoneMax
    requires !StabilizeActive(s, now) && s.activeEvent.kind.None?
    requires s.cumulativeStableTimeMs + GameLoopIntervalMs < CoopWinTargetMs
    ensures UpdateGame(s, now).state.energyLevel == s.energyLevel - 0.25
    ensures UpdateGame(s, now).state.cumulativeStableTimeMs == s.cumulativeStableTimeMs + GameLoopIntervalMs
    ensures UpdateGame(s, now).state.continuousTimeInDangerLowMs == 0
    ensures UpdateGame(s, now).state.continuousTimeInDangerHighMs == 0
    ensures UpdateGame(s, now).result.Routine?
  {
  }

  /** The state after ticks at the given times, with no other activity. */
  function Ticks(s: State, nows: seq<int>): State
    decreases |nows|
  {
    if |nows| == 0 then s else Ticks(UpdateGame(s, nows[0]).state, nows[1..])
  }

  /** The largest decay one tick can cause: the base rate under a surge
      alone, over one loop interval. */
  const MaxDecayPerTick: real :=
    BaseEnergyDecayRate * EventSurgeDecayMultiplier * (GameLoopIntervalMs as real / 1000.0)

  /** No tick decays by more than `MaxDecayPerTick`. */
  lemma DecayBoundedPerTick(s: State, now: int)
    ensures 0.0 < DecayAmount(DecayRate(s, now)) <= MaxDecayPerTick
  {
  }

  /** The first tick of a freshly reset game at a non-negative time never
      ends it: the level starts in the safe band and no timer is close to
      its limit. */
  lemma FreshGameSurvivesFirstTick(s: State, now: int)
    requires FreshGrid(s) && now >= 0
    ensures UpdateGame(s, now).result.Routine?
    ensures UpdateGame(s, now).state.gameIsRunning
    ensures UpdateGame(s, now).state.energyLevel == InitialEnergy - 0.25
    ensures UpdateGame(s, now).state.cumulativeStableTimeMs == GameLoopIntervalMs
  {
  }

  /** One tick from inside the safe band, far enough above its floor that
      even the fastest decay keeps it there, adds one interval of stable time
      and does not end the game while the cooperative target is not reached. */
  lemma InBandTick(s: State, now: int)
    requires s.gameIsRunning
    requires SafeZoneMin + MaxDecayPerTick <= s.energyLevel <= SafeZoneMax
    requires s.cumulativeStableTimeMs + GameLoopIntervalMs < CoopWinTargetMs
    ensures UpdateGame(s, now).state.gameIsRunning
    ensures UpdateGame(s, now).state.cumulativeStableTimeMs == s.cumulativeStableTimeMs + GameLoopIntervalMs
    ensures s.energyLevel - MaxDecayPerTick <= UpdateGame(s, now).state.energyLevel <= s.energyLevel
  {
  }

  /** Ticks that keep the level inside the safe band add exactly one
      interval of stable time each, whatever effects and events are in
      force, as long as the cooperative target is not reached. */
  lemma {:induction false} InBandTicksAccumulate(s: State, nows: seq<int>)
    requires s.gameIsRunning
    requires SafeZoneMin + MaxDecayPerTick * |nows| as real <= s.energyLevel <= SafeZoneMax
    requires s.cumulativeStableTimeMs + GameLoopIntervalMs * |nows| < CoopWinTargetMs
    ensures Ticks(s, nows).gameIsRunning
    ensures Ticks(s, nows).cumulativeStableTimeMs == s.cumulativeStableTimeMs + GameLoopIntervalMs * |nows|
    ensures Ticks(s, nows).energyLevel >= s.energyLevel - MaxDecayPerTick * |nows| as real
    decreases |nows|
  {
    if |nows| > 0 {
      assert MaxDecayPerTick == 0.625;
      InBandTick(s, nows[0]);
      InBandTicksAccumulate(UpdateGame(s, nows[0]).state, nows[1..]);
    }
  }

  /** With no stabilize effect and no event, at non-negative times, ticks
      inside the safe band follow the base trajectory exactly: a quarter
      point per tick. */
  lemma {:induction false} QuietDecayIsExact(s: State, nows: seq<int>)
    requires s.gameIsRunning && s.stabilizeEffectEndTime == 0 && s.activeEvent == NoEvent
    requires forall i :: 0 <= i < |nows| ==> nows[i] >= 0
    requires SafeZoneMin + 0.25 * |nows| as real <= s.energyLevel <= SafeZoneMax
    requires s.cumulativeStableTimeMs + GameLoopIntervalMs * |nows| < CoopWinTargetMs
    ensures Ticks(s, nows).gameIsRunning
    ensures Ticks(s, nows).energyLevel == s.energyLevel - 0.25 * |nows| as real
    ensures Ticks(s, nows).stabilizeEffectEndTime == 0 && Ticks(s, nows).activeEvent == NoEvent
    decreases |nows|
  {
    if |nows| > 0 {
      var next := UpdateGame(s, nows[0]).state;
      assert next.energyLevel == s.energyLevel - 0.25 && next.gameIsRunning;
      assert next.stabilizeEffectEndTime == 0 && next.activeEvent == NoEvent;
      QuietDecayIsExact(next, nows[1..]);
    }
  }
}
